=== FILE: README.md ===
# aws-mocks SQS emulator — a Dafny model

aws-mocks emulates a subset of Amazon SQS on top of MongoDB. Two kinds of
data live in the store:

- the `queue_settings` collection holds one settings document per queue:
  `Name`, `URL`, `Created` and the queue attributes;
- each queue has a message collection, which the mongodb-queue library
  manages.

lib/SQS.js also keeps a process-wide cache of connected queues, the
module-level `queues` object, keyed by URL.

This project models the queue operations of lib/SQS.js and the error
taxonomy of lib/AWSErrors.js. Each operation is a pure function from a store
and a parameter bag to a reply and the store it leaves behind.

| file | module | what it holds |
|---|---|---|
| results.dfy | `Results` | `Option` and `Result` |
| numerals.dfy | `Numerals` | decimal and hexadecimal numerals, with round trips |
| js.dfy | `Js` | JavaScript values: truthiness, `\|\|`, `String(v)`, `Number(v)`, `>` |
| aws_errors.dfy | `AwsErrors` | the error datatype and its `name`, `code` and `message` |
| validation.dfy | `Validation` | `checkParams` |
| store.dfy | `Store` | settings documents, message records, the store, lookups by name and URL |
| registry.dfy | `Registry` | the operations below, plus the cache coherence invariant |
| message_ops.dfy | `MessageOps` | the operations below |

`Registry` holds `createQueue`, `getQueueUrl`, `listQueues`,
`setQueueAttributes` and `connectToQueue`.

`MessageOps` holds `changeMessageVisibility`, `deleteMessage`,
`deleteMessageBatch`, `sendMessage`, `receiveMessage`, `doReceiveMessage`
and `getTimestamp`.

Modelling choices:

- **Parameter bags.** A parameter bag is a `map<string, Value>`. An absent key
  reads as `undefined`.
- **Time.** Time is a parameter `now`, in milliseconds.
- **One request at a time.** Each operation is one atomic step from a store to
  a store. In the source, other requests can run at every callback (see Left
  out).
- **The store is a value.** `State` holds:
  - the settings documents in insertion order. The model assumes this is
    the order `findOne` and `find` return them in; MongoDB leaves that order
    unspecified (see Left out);
  - the message collections;
  - the cache.
- **The queue library.** The calls into mongodb-queue (`add`, `ack`, `get`)
  are not part of this model. The same holds for the MD5 digest and
  `JSON.stringify`. All five are the function-valued fields of
  `MessageOps.Collaborators`, and nothing is claimed about what they do.

The central invariant is `Store.CacheCoherent`: every cached queue is a
stored settings document, cached under its own URL. `createQueue`,
`connectToQueue` and all message operations preserve it. `setQueueAttributes`
as written does not preserve it (see Findings): `Registry.SetQueueAttributes`
models the source as written, and `Registry.SetQueueAttributesCoherent` is
the corrected operation.

## Model

| member | source | states |
|---|---|---|
| AwsErrors.Code | lib/AWSErrors.js:11-78 | every AWS error's `code` is a non-empty string, so `err.code \|\| "UnknownError"` never falls back for one |
| AwsErrors.Name | lib/AWSErrors.js:11-78 | for each of the six AWS error classes, `name` is a non-empty string equal to `code` |
| AwsErrors.UnitTestNamesAndCodes | lib/AWSErrors.js:11-78 | for each of the six classes, whatever it was constructed from, `name` and `code` are exactly the class's own name (`MissingRequiredParameter`, `MultipleValidationErrors`, `QueueDoesNotExist`, `InvalidAttributeName`, `InvalidParameterType`, `InvalidParameterValue`), as each class's unit test expects |
| AwsErrors.CodeIdentifiesKind | lib/AWSErrors.js:11-78 | two AWS errors have the same `code` exactly when they belong to the same class, so the code identifies the class |
| AwsErrors.MissingParamRoundTrip | lib/AWSErrors.js:11-19 | the parameter name can be read back out of a `MissingRequiredParameter` message |
| AwsErrors.Message | lib/AWSErrors.js:11-38 | the parameter name can be read back out of a `MissingRequiredParameter` message, and a `MultipleValidationErrors` message starts with `There were <n> validation errors: \n`, where n is the number of wrapped errors |
| AwsErrors.MessagesSnoc | lib/AWSErrors.js:32-34 | collecting the messages of one more error appends exactly that error's message at the end |
| AwsErrors.MultipleMessageSnoc | lib/AWSErrors.js:30-36 | wrapping one more error raises the count in the header by one, keeps the earlier bullet lines and appends `* <message> \n` for the new error |
| AwsErrors.BulletsSnoc | lib/AWSErrors.js:32-34 | adding one error to the list appends exactly one `* <message> \n` line at the end |
| AwsErrors.BulletsAppend | lib/AWSErrors.js:32-34 | the bullets of two concatenated lists are the concatenation of their bullets |
| AwsErrors.MessagesAppend | lib/AWSErrors.js:32-34 | the messages of two concatenated error lists are the messages of the first followed by those of the second |
| AwsErrors.MultipleMessageAppend | lib/AWSErrors.js:30-36 | wrapping two error lists together counts all of their errors in the header and gives the first list's bullet lines before the second's |
| AwsErrors.MultipleMessageOfTwo | lib/AWSErrors.js:21-38 | any two errors combine into `There were 2 validation errors: \n* a \n* b \n` |
| AwsErrors.UnitTestMultipleMessage | test/unit/AWSErrors/MultipleValidationErrors.test.js:27-31 | two plain errors give the exact message the unit test expects |
| AwsErrors.UnitTestFixedMessages | lib/AWSErrors.js:40-58 | the fixed `QueueDoesNotExist` and `InvalidAttributeName` messages |
| AwsErrors.UnitTestMissingMessage | test/unit/AWSErrors/MissingRequiredParameterError.test.js:20-23 | the `MissingRequiredParameter` message for `param` is exactly the one the unit test expects |
| AwsErrors.UnitTestValueMessage | test/unit/AWSErrors/InvalidParameterValueError.test.js:20-23 | the `InvalidParameterValue` message for the value `foo` and reason `Is not bar` is exactly the one the unit test expects |
| AwsErrors.UnitTestTypeMessage | test/unit/AWSErrors/InvalidParameterTypeError.test.js:20-23 | for the accessor `Attributes['fake']` and the type `string`, the message is exactly the one the unit test expects |
| Validation.MissingNames | lib/SQS.js:456-462 | a name is reported missing iff it is required and its value is null or undefined |
| Validation.MissingNamesAppend | lib/SQS.js:458-462 | the missing names keep the order of the required names |
| Validation.CheckParams | lib/SQS.js:455-473 | no error iff nothing is missing. Otherwise the error is either the single missing name's `MissingRequiredParameter`, or `MultipleValidationErrors` wrapping one such error per missing name, in order, when two or more are missing |
| Validation.SendMessageWithNothing | lib/SQS.js:375 | `sendMessage` without `MessageBody` and `QueueUrl` fails with both errors, body first |
| Store.FindByName | lib/SQS.js:92 | the answer is the first settings document with that name; there is none iff no document has it |
| Store.FindByUrl | lib/SQS.js:519 | the answer is the first settings document with that URL; there is none iff no document has it |
| Registry.CreatedAttributes | lib/SQS.js:104-133 | a new queue has exactly the defaults plus the whitelisted keys the caller supplied as own properties; a supplied value wins over the default, and unknown keys are dropped |
| Registry.CreateQueue | lib/SQS.js:74-153 | a missing name is an error. An existing name answers its URL and leaves the store unchanged. A new name appends one settings document with URL `http://localhost/<name>`, caches it, and answers that URL |
| Registry.FindByNameAppended | lib/SQS.js:137 | an inserted document with a new name is the one a later lookup by that name finds |
| Registry.FindByNameKept | lib/SQS.js:137 | inserting a document never changes which earlier document a name finds |
| Registry.CreateQueueIdempotent | lib/SQS.js:92-101 | a second `createQueue` with the same parameters answers the same URL and changes nothing |
| Registry.CreateQueueKeepsCacheCoherent | lib/SQS.js:137-146 | `createQueue` preserves cache coherence |
| Registry.GetQueueUrl | lib/SQS.js:271-301 | a missing name is `MissingRequiredParameter`. Otherwise `QueueDoesNotExist` iff no document has the name, and when a document has the name the answer is the URL of the first such document in store order, as `findOne` answers |
| Registry.CreateQueueKeepsLookups | lib/SQS.js:92-137 | `createQueue` never changes what `getQueueUrl` answers for a name it already found, even when two documents share a name |
| Registry.CreateThenGetQueueUrl | lib/SQS.js:285-295 | after a successful `createQueue`, `getQueueUrl` with the same name answers the same URL |
| Registry.ListedUrls | lib/SQS.js:322-330 | a URL is listed iff some document carrying it passes the prefix and reserved-name filters |
| Registry.ListedUrlsAppend | lib/SQS.js:328-330 | listing keeps store order |
| Registry.ListQueues | lib/SQS.js:308-339 | a URL is listed iff a stored queue has it, its name starts with `QueueNamePrefix` when that is truthy, and the name is not `system.indexes` or `queue_settings` |
| Registry.ListQueuesByPrefixExample | test/functional/SQS/listQueues.test.js:14-55 | on the functional test's two queues `test_queue` and `fake_queue`, the prefix `test` lists exactly the one `test_queue` URL |
| Registry.ListQueuesUnfilteredExample | test/functional/SQS/listQueues.test.js:14-45 | on the same two queues, no prefix lists both URLs, in store order |
| Registry.SetQueueAttributes | lib/SQS.js:407-450 | missing parameters are an error. Otherwise it answers success and writes the truthy whitelisted keys into the first document with that URL. Every other key, every other document, the messages and the cache stay unchanged. An unknown URL changes nothing |
| Registry.SetQueueAttributesLeavesCacheStale | lib/SQS.js:437-443 | an update after a connect leaves the cache incoherent, and the next connect still sees the old `VisibilityTimeout` |
| Registry.SetQueueAttributesCoherent | lib/SQS.js:437-443 | the corrected update gives the same answer and the same stored settings, and preserves cache coherence |
| Registry.CoherentUpdateSeenByConnect | lib/SQS.js:509-512 | with the corrected update, the next connect sees the new `VisibilityTimeout` |
| Registry.LastSegment | lib/SQS.js:539 | `split("/").pop()` is a suffix with no `/`, preceded by a `/` unless it is the whole string |
| Registry.LastSegmentOfQueueUrl | lib/SQS.js:103 | for a name without `/`, the name a queue is created under is the last segment of its URL. A name with `/` is not covered: `a/b` gives the last segment `b` |
| Registry.LastSegmentAfterSlash | lib/SQS.js:539 | after a prefix ending in `/`, a `/`-free tail is the last segment |
| Registry.ConnectToQueue | lib/SQS.js:504-569 | the branches, in order: a falsy URL fails with `QueueUrl required`; a cached URL answers the cached settings; a URL that names a property every object inherits (`toString`, `constructor`, …) is a hit with no queue and fails with a `TypeError`; a stored URL is cached and answered; an unknown string URL auto-creates a queue with default attributes named after its last segment; any other value cannot be split and fails with a `TypeError`. A failure changes nothing |
| Registry.ConnectToQueueKeepsCacheCoherent | lib/SQS.js:528 | `connectToQueue` preserves cache coherence |
| Registry.ConnectToQueueTwice | lib/SQS.js:509-512 | a second connect to the same URL is a cache hit: same answer, unchanged store |
| Registry.QueueUrlNotInherited | lib/SQS.js:509 | no URL of the form `http://localhost/<name>` is one of the inherited property names, so the emulator's own queue URLs never take the inherited-hit branch |
| Registry.ConnectThenCreateQueue | lib/SQS.js:532-557 | for a name without `/` that is neither stored nor cached, a queue auto-created by connecting to `http://localhost/<name>` is the queue a later `createQueue` of `<name>` answers |
| MessageOps.FirstHolding | lib/SQS.js:52 | picks the first message that holds the receipt handle and is not deleted; there is none iff no message does |
| MessageOps.SetVisible | lib/SQS.js:52-55 | only the selected message changes, and only its visibility time |
| MessageOps.ChangeMessageVisibility | lib/SQS.js:28-67 | parameters are checked first, then the 43200-second limit, both leaving the store unchanged. Connect errors pass through. On success the answer is `{}`. Exactly the first unacknowledged holder of the handle becomes visible `VisibilityTimeout` seconds after now; every other message, including later holders of the same handle, every other queue, the settings and the cache are unchanged |
| MessageOps.VisibilityLimitBoundary | lib/SQS.js:37-43 | 43201 is rejected with `InvalidParameterValue` and the store untouched; 43200 is not rejected |
| MessageOps.ChangedMessageHiddenUntilTimeout | lib/SQS.js:52-53 | the changed message can be leased at a later time iff that time is at least now plus the timeout |
| MessageOps.DeleteMessage | lib/SQS.js:155-182 | parameter and connect errors pass through. Otherwise the queue library acknowledges `ReceiptHandle`; its error is the answer, and on success the answer is `{}` over the acknowledged messages |
| MessageOps.FailureCode | lib/SQS.js:208 | a failed entry's code is always truthy, and for an AWS error it is that error's name |
| MessageOps.AckStates | lib/SQS.js:200-213 | the entries are acknowledged one after another: each `ack` sees the messages the previous one left, and a failed `ack` leaves them unchanged |
| MessageOps.AckEach | lib/SQS.js:200-213 | one outcome per entry, carrying that entry's `Id`. For every entry, not only the first, the outcome is acknowledged iff that entry's own `ack`, on the messages left by the entries before it, succeeded, and a failed entry carries its own error's code. A failure is an outcome, not an abort, and the messages left are those after the last entry |
| MessageOps.Successes | lib/SQS.js:219-229 | exactly the `Id`s of the acknowledged outcomes |
| MessageOps.Failures | lib/SQS.js:219-229 | exactly the failed outcomes, each with `SenderFault` false |
| MessageOps.SplitCounts | lib/SQS.js:221-229 | every outcome lands in exactly one of `Successful` and `Failed` |
| MessageOps.SplitAppend | lib/SQS.js:221-229 | both lists keep entry order |
| MessageOps.Split | lib/SQS.js:219-231 | the two lists together are as long as the outcomes, and no failure is the sender's fault |
| MessageOps.BatchPartialFailure | lib/SQS.js:200-231 | a batch whose first entry succeeds and second fails reports the first as successful and the second as failed, with the error's code |
| MessageOps.DeleteMessageBatch | lib/SQS.js:184-238 | after the parameter check and the connect, the batch never fails as a whole: every entry appears, under its `Id`, in exactly one of the two lists |
| MessageOps.SendMessage | lib/SQS.js:372-400 | parameter and connect errors pass through, and so does an error from adding the body. Otherwise the body is added with delay `DelaySeconds \|\| 0` and stays added. A string body is answered with its MD5 and the new id; for any other body, taking the digest fails with a `TypeError` |
| MessageOps.TimestampSeconds | lib/SQS.js:632-634 | for an id without leading blanks, sign or `0x`, as object ids are, `getTimestamp` is NaN exactly when the id is empty or does not start with a hexadecimal digit |
| MessageOps.ObjectIdTimestamp | lib/SQS.js:632-634 | for an id starting with its creation time as eight hexadecimal digits, `getTimestamp` reads back exactly that time |
| MessageOps.Format | lib/SQS.js:590-600 | the report carries the record's id, handle and body. `ApproximateReceiveCount` reads back as the number of tries, and `SentTimestamp` as the id's time in milliseconds |
| MessageOps.DoReceiveMessage | lib/SQS.js:571-605 | connects, then leases with the effective visibility timeout. No record is answered as `{}`; a leased record is answered as a one-element `Messages`; errors pass through |
| MessageOps.EffectiveVisibility | lib/SQS.js:579 | the lease asks for the caller's `VisibilityTimeout` when it is truthy and for the queue's setting otherwise; the result is truthy iff one of the two is |
| MessageOps.ZeroVisibilityMeansQueueDefault | lib/SQS.js:579 | a caller's `VisibilityTimeout` of 0 behaves exactly like leaving it out |
| MessageOps.ReceiveMessage | lib/SQS.js:346-365 | a missing `QueueUrl` is `MissingRequiredParameter`; otherwise it is `doReceiveMessage` |
| MessageOps.MessageOperationsKeepCacheCoherent | lib/SQS.js:504-569 | every message operation preserves cache coherence |
| Numerals.ParseNatToString | lib/SQS.js:596-597 | a decimal rendering of a count reads back as that count |
| Numerals.HexEncode | lib/SQS.js:633 | a fixed-width hexadecimal encoding has that width and only hexadecimal digits |
| Numerals.ParseHexEncode | lib/SQS.js:633 | `parseInt(…, 16)` of a fixed-width encoding that fits gives back the number |
| Numerals.ParseIntHex | lib/SQS.js:633 | for text without leading blanks, sign or `0x`, as object ids are, `parseInt(s, 16)` is NaN iff `s` is empty or does not start with a hexadecimal digit |

## Left out

- **MongoDB failures.** The driver's errors (connect, `findOne`, `insert`, `findOneAndUpdate`, `find`) are not modelled. Every `if (err)` branch that only forwards a driver error is absent, so the model's errors are the ones the emulator raises itself. The queue library's errors are modelled, because the collaborators return a `Result`.
- **The queue library.** The internals of mongodb-queue's `add`, `ack` and `get` are left out: which message a lease picks, `tries`, `firstClaimed`, receipt-handle generation, and the delay. That code is not part of this model. The general claim that acknowledging a stale handle is a silent success therefore cannot be stated: it depends on what `ack` does.
- **MD5 and `JSON.stringify`.** Both are uninterpreted, so nothing is claimed about the checksum sent and the checksum received matching.
- **Numbers.** Numbers are integers only; floating-point values are not modelled.
- `Js.ToNumber`: `Number(s)` covers only the empty string, decimal digits and a leading `-`. Whitespace, exponents, hexadecimal literals and fractions are not modelled.
- `MessageOps.Seconds`: a visibility timeout that is not a number adds 0 seconds. How moment.js handles NaN is not modelled.
- `Registry.ListQueues`: the prefix is matched as literal text. In the source it becomes a regular expression (`new RegExp("^" + prefix)`, lib/SQS.js:319), so a prefix containing regex metacharacters matches differently, and a prefix that is not a valid pattern, such as `(`, makes `new RegExp` throw a `SyntaxError`. Neither is modelled.
- **Query equality.** A MongoDB query match (`{ Name: … }`, `{ URL: … }`, `{ ack: … }`) is modelled as equality of values. Type coercion inside MongoDB is not modelled.
- `MessageOps.DeleteMessageBatch`: `async.map` runs the acknowledgements concurrently. The model runs them one after another, in entry order. A non-array `Entries` is treated as an empty batch. An entry that is `null` or `undefined` makes the source throw when it reads `entry.ReceiptHandle` (lib/SQS.js:201); the model instead reads that entry's `ReceiptHandle` and `Id` as `undefined` and hands them to `ack`.
- `MessageOps.SendMessage`: the `TypeError` of a non-string body is thrown inside the `add` callback in the source, so it escapes instead of reaching the caller's callback. The model answers it as an error result. Its message and code are those of current Node versions.
- `MessageOps.TimestampSeconds`: it reads the id's first eight characters with `Numerals.ParseIntHex`, so the limits of the next line apply. For example, an id starting with ` 1` gives NaN in the model but 1 in the source, and one starting with `0xzz` gives 0 in the model but NaN in the source.
- `Numerals.ParseIntHex`: JavaScript's `parseInt` also skips leading whitespace, accepts a sign and, in base 16, a `0x` prefix. None of these is modelled. The ids `getTimestamp` reads are MongoDB object ids, which never have them.
- `Registry.ConnectToQueue`: a truthy non-string `QueueUrl` with no stored settings makes the source throw a `TypeError` from `queueUrl.split`. The model answers that as an error result. The cache is keyed by `String(url)`. Of the properties a plain object inherits, the twelve names in `Registry.InheritedKeys` are modelled as a hit with no queue. The caller then fails with a `TypeError` whose text depends on the caller; the model gives one generic text. Other inherited names, such as accessors added by libraries, are not modelled.
- `Registry.CreateQueue`, `Registry.ConnectToQueue`: each request is modelled as one atomic step, but in the source other requests run at every database callback. Two overlapping `createQueue` calls for the same name can both miss `findOne` (lib/SQS.js:92-98) and both insert (lib/SQS.js:137), leaving two documents with that name. Two overlapping connects to an unknown URL can both auto-create the queue (lib/SQS.js:532-557). `Registry.CreateQueueIdempotent`, `Registry.ConnectToQueueTwice` and the cache-coherence lemmas (`Registry.CreateQueueKeepsCacheCoherent`, `Registry.ConnectToQueueKeepsCacheCoherent`, `MessageOps.MessageOperationsKeepCacheCoherent`) therefore hold only when requests run one after another.
- `Store.FindByName`, `Store.FindByUrl`: the model takes `findOne` to answer the first matching document in insertion order, and `find` to list documents in that order. MongoDB documents natural order as unspecified, so which of two documents with the same name or URL is answered, and the order of `listQueues`, are assumptions.
- `MessageOps.AckStates`, `MessageOps.AckEach`: the acknowledgements of a batch run one after another in entry order, each on the messages the previous one left. In the source `async.map` starts them concurrently, and other requests can interleave with them.
- **Wait time.** `receiveMessage` waits `WaitTimeSeconds` before receiving. The wait changes nothing in the store and is left out.
- **Plumbing.** `normalize`, `createRequest`, `Request`, `Response`, `sendResponse` and the promise interface are left out. They only deliver answers.
- **Stubs and other files.**
  - `deleteQueue` is left out.
  - The operations that are stubs (`addPermission`, `getQueueAttributes`, `purgeQueue`, …) are left out.
  - lib/config.js, lib/Service.js and testRecursive.js are not part of this model.
- **Errors.** The `time` field of `AWSError` (a wall-clock date) is left out. A `MultipleValidationErrors` wraps model errors, not arbitrary JavaScript objects. The unit tests' constructor calls without arguments (`undefined` interpolated into a message) are not modelled.

## Findings

| source | as written | input that shows it | evidently intended | confidence | as-written member | corrected member |
|---|---|---|---|---|---|---|
| lib/SQS.js:437-443 | `setQueueAttributes` updates the stored settings document only; a queue already connected keeps its old settings in the `queues` cache, and `receiveMessage` reads `VisibilityTimeout` from there | create `q`, connect to `http://localhost/q`, then set `VisibilityTimeout` to 1000: the store says 1000, the next connect answers 30 | later operations on the queue see the updated attributes | medium, not executed | Registry.SetQueueAttributesLeavesCacheStale | Registry.SetQueueAttributesCoherent |

=== FILE: aws_errors.dfy ===
/** The error taxonomy of lib/AWSErrors.js as one datatype. Each AWS kind has
    a fixed `name` and `code` and a `message` built from its arguments; the
    `Plain` kind stands for every other error the emulator passes through
    (a bare `Error`, a `TypeError`, a failure reported by the message store). */
module AwsErrors {
  import opened Results
  import opened Js
  import Numerals

  datatype Error =
    | MissingRequiredParameter(param: string)
    | MultipleValidationErrors(errors: seq<Error>)
    | QueueDoesNotExist
    | InvalidAttributeName
    | InvalidParameterType(accessor: string, expected: string)
    | InvalidParameterValue(value: Value, reason: string)
    | Plain(kind: string, text: string, code: Value)

  /** One of the six classes lib/AWSErrors.js defines. */
  predicate IsAws(e: Error) {
    !e.Plain?
  }

  /** The error's `code` property (`undefined` on a plain error that has none).
      An AWS error's code is a non-empty string, so `err.code || fallback`
      never falls back for one. */
  function Code(e: Error): (c: Value)
    ensures IsAws(e) ==> c.Str? && Truthy(c)
  {
    match e
    case MissingRequiredParameter(_) => Str("MissingRequiredParameter")
    case MultipleValidationErrors(_) => Str("MultipleValidationErrors")
    case QueueDoesNotExist => Str("QueueDoesNotExist")
    case InvalidAttributeName => Str("InvalidAttributeName")
    case InvalidParameterType(_, _) => Str("InvalidParameterType")
    case InvalidParameterValue(_, _) => Str("InvalidParameterValue")
    case Plain(_, _, c) => c
  }

  /** The error's `name` property; for every AWS kind it is the code. */
  function Name(e: Error): (n: string)
    ensures IsAws(e) ==> Code(e) == Str(n) && n != ""
  {
    match e
    case MissingRequiredParameter(_) => "MissingRequiredParameter"
    case MultipleValidationErrors(_) => "MultipleValidationErrors"
    case QueueDoesNotExist => "QueueDoesNotExist"
    case InvalidAttributeName => "InvalidAttributeName"
    case InvalidParameterType(_, _) => "InvalidParameterType"
    case InvalidParameterValue(_, _) => "InvalidParameterValue"
    case Plain(k, _, _) => k
  }

  /** The error's `message` property. The parameter of a
      `MissingRequiredParameter` can be read back from its message, and a
      combined message starts with the count of the errors it combines. */
  function Message(e: Error): (m: string)
    ensures e.MissingRequiredParameter? ==> MissingParamOf(m) == Some(e.param)
    ensures e.MultipleValidationErrors? ==> Header(|e.errors|) <= m
  {
    match e
    case MissingRequiredParameter(p) =>
      var pre := "Missing required parameter '";
      var suf := "' in params";
      var m := pre + p + suf;
      assert m[..|pre|] == pre;
      assert m[|m| - |suf|..] == suf;
      assert m[|pre|..|m| - |suf|] == p;
      "Missing required parameter '" + p + "' in params"
    case MultipleValidationErrors(es) =>
      Header(|es|) + Bullets(seq(|es|, i requires 0 <= i < |es| => Message(es[i])))
    case QueueDoesNotExist => "The queue referred to does not exist"
    case InvalidAttributeName => "The attribute referred to does not exist"
    case InvalidParameterType(a, t) => "Expected params." + a + " to be a " + t
    case InvalidParameterValue(v, r) => "Value " + ToText(v) + " is invalid. Reason: " + r + "."
    case Plain(_, t, _) => t
  }

  /** The messages of `es`, in order. */
  function Messages(es: seq<Error>): (ms: seq<string>)
    ensures |ms| == |es|
    ensures forall i :: 0 <= i < |es| ==> ms[i] == Message(es[i])
  {
    seq(|es|, i requires 0 <= i < |es| => Message(es[i]))
  }

  /** First line of a combined message. */
  function Header(count: nat): string {
    "There were " + Numerals.NatToString(count) + " validation errors: \n"
  }

  /** One `* <message> \n` line per message, in order. */
  function Bullets(ms: seq<string>): string {
    if |ms| == 0 then "" else "* " + ms[0] + " \n" + Bullets(ms[1..])
  }

  /** The combined message of `MultipleValidationErrors`: the count, then one
      bullet line per error in the order given. */
  lemma MultipleMessageShape(es: seq<Error>)
    ensures Message(MultipleValidationErrors(es)) == Header(|es|) + Bullets(Messages(es))
  {
  }

  /** Combining one more error keeps the earlier bullet lines, raises the
      count by one and appends exactly the new error's bullet line. */
  lemma MultipleMessageSnoc(es: seq<Error>, e: Error)
    ensures Message(MultipleValidationErrors(es + [e]))
         == Header(|es| + 1) + Bullets(Messages(es)) + ("* " + Message(e) + " \n")
  {
    MultipleMessageShape(es + [e]);
    BulletsOfSnoc(es, e);
    ConcatAssoc(Header(|es| + 1), Bullets(Messages(es)), "* " + Message(e) + " \n");
  }

  /** The bullet lines of one more error are the earlier ones and its own. */
  lemma BulletsOfSnoc(es: seq<Error>, e: Error)
    ensures Bullets(Messages(es + [e])) == Bullets(Messages(es)) + ("* " + Message(e) + " \n")
  {
    MessagesSnoc(es, e);
    BulletsSnoc(Messages(es), Message(e));
  }

  lemma ConcatAssoc(a: string, b: string, c: string)
    ensures a + (b + c) == a + b + c
  {
  }

  /** The messages of a list with one more error end with that error's message. */
  lemma MessagesSnoc(es: seq<Error>, e: Error)
    ensures Messages(es + [e]) == Messages(es) + [Message(e)]
  {
    var all := es + [e];
    assert forall i :: 0 <= i < |es| ==> all[i] == es[i];
  }

  /** Appending an error to the list appends exactly its bullet line. */
  lemma {:induction false} BulletsSnoc(ms: seq<string>, m: string)
    ensures Bullets(ms + [m]) == Bullets(ms) + "* " + m + " \n"
    decreases |ms|
  {
    if |ms| > 0 {
      BulletsSnoc(ms[1..], m);
      assert (ms + [m])[1..] == ms[1..] + [m];
    }
  }

  /** Bullet lines of two lists concatenate. */
  lemma {:induction false} BulletsAppend(a: seq<string>, b: seq<string>)
    ensures Bullets(a + b) == Bullets(a) + Bullets(b)
    decreases |a|
  {
    if |a| > 0 {
      BulletsAppend(a[1..], b);
      assert (a + b)[1..] == a[1..] + b;
    } else {
      assert a + b == b;
    }
  }

  /** The messages of a concatenation are the messages of each part, in order. */
  lemma MessagesAppend(a: seq<Error>, b: seq<Error>)
    ensures Messages(a + b) == Messages(a) + Messages(b)
  {
    var all := a + b;
    assert forall i :: 0 <= i < |a| ==> all[i] == a[i];
    assert forall i :: |a| <= i < |all| ==> all[i] == b[i - |a|];
  }

  /** Combining two lists of errors counts all of them in the header and
      lists the first list's bullet lines before the second's. */
  lemma MultipleMessageAppend(a: seq<Error>, b: seq<Error>)
    ensures Message(MultipleValidationErrors(a + b))
         == Header(|a| + |b|) + Bullets(Messages(a)) + Bullets(Messages(b))
  {
    MultipleMessageShape(a + b);
    assert Bullets(Messages(a + b)) == Bullets(Messages(a)) + Bullets(Messages(b)) by {
      MessagesAppend(a, b);
      BulletsAppend(Messages(a), Messages(b));
    }
    ConcatAssoc(Header(|a| + |b|), Bullets(Messages(a)), Bullets(Messages(b)));
  }

  /** The `name` and `code` every error class carries, whatever it was
      constructed from: both are the class's own name. */
  lemma UnitTestNamesAndCodes(p: string, es: seq<Error>, accessor: string, expected: string, v: Value, reason: string)
    ensures Name(MissingRequiredParameter(p)) == "MissingRequiredParameter"
         && Code(MissingRequiredParameter(p)) == Str("MissingRequiredParameter")
    ensures Name(MultipleValidationErrors(es)) == "MultipleValidationErrors"
         && Code(MultipleValidationErrors(es)) == Str("MultipleValidationErrors")
    ensures Name(QueueDoesNotExist) == "QueueDoesNotExist" && Code(QueueDoesNotExist) == Str("QueueDoesNotExist")
    ensures Name(InvalidAttributeName) == "InvalidAttributeName"
         && Code(InvalidAttributeName) == Str("InvalidAttributeName")
    ensures Name(InvalidParameterType(accessor, expected)) == "InvalidParameterType"
         && Code(InvalidParameterType(accessor, expected)) == Str("InvalidParameterType")
    ensures Name(InvalidParameterValue(v, reason)) == "InvalidParameterValue"
         && Code(InvalidParameterValue(v, reason)) == Str("InvalidParameterValue")
  {
  }

  /** The message of `MissingRequiredParameter(p)` names `p`: the text between
      the fixed prefix and suffix. */
  function MissingParamOf(message: string): Option<string> {
    var pre := "Missing required parameter '";
    var suf := "' in params";
    if |message| >= |pre| + |suf| && message[..|pre|] == pre && message[|message| - |suf|..] == suf
    then Some(message[|pre|..|message| - |suf|])
    else None
  }

  /** The missing parameter's name is recoverable from the message alone. */
  lemma MissingParamRoundTrip(p: string)
    ensures MissingParamOf(Message(MissingRequiredParameter(p))) == Some(p)
  {
    var pre := "Missing required parameter '";
    var suf := "' in params";
    var m := pre + p + suf;
    assert m[..|pre|] == pre;
    assert m[|m| - |suf|..] == suf;
    assert m[|pre|..|m| - |suf|] == p;
  }

  /** Two AWS errors have the same code exactly when they are of the same kind. */
  lemma CodeIdentifiesKind(a: Error, b: Error)
    requires IsAws(a) && IsAws(b)
    ensures Code(a) == Code(b) <==>
      (a.MissingRequiredParameter? && b.MissingRequiredParameter?) ||
      (a.MultipleValidationErrors? && b.MultipleValidationErrors?) ||
      (a.QueueDoesNotExist? && b.QueueDoesNotExist?) ||
      (a.InvalidAttributeName? && b.InvalidAttributeName?) ||
      (a.InvalidParameterType? && b.InvalidParameterType?) ||
      (a.InvalidParameterValue? && b.InvalidParameterValue?)
  {
  }

  /** The fixed messages the unit tests of lib/AWSErrors.js expect. */
  lemma UnitTestFixedMessages()
    ensures Message(QueueDoesNotExist) == "The queue referred to does not exist"
    ensures Message(InvalidAttributeName) == "The attribute referred to does not exist"
  {
  }

  /** The message the unit tests of lib/AWSErrors.js expect for a missing parameter. */
  lemma UnitTestMissingMessage()
    ensures Message(MissingRequiredParameter("param")) == "Missing required parameter 'param' in params"
  {
    assert "Missing required parameter '" + "param" == "Missing required parameter 'param";
  }

  /** The message the unit tests of lib/AWSErrors.js expect for an invalid value. */
  lemma UnitTestValueMessage()
    ensures Message(InvalidParameterValue(Str("foo"), "Is not bar")) == "Value foo is invalid. Reason: Is not bar."
  {
    assert ToText(Str("foo")) == "foo";
    assert "Value " + "foo" == "Value foo";
    assert "Value foo" + " is invalid. Reason: " == "Value foo is invalid. Reason: ";
    assert "Value foo is invalid. Reason: " + "Is not bar" == "Value foo is invalid. Reason: Is not bar";
  }

  /** The message the unit tests of lib/AWSErrors.js expect for a type error. */
  lemma UnitTestTypeMessage()
    ensures Message(InvalidParameterType("Attributes['fake']", "string")) == "Expected params.Attributes['fake'] to be a string"
  {
    assert "Expected params." + "Attributes['fake']" == "Expected params.Attributes['fake']";
    assert "Expected params.Attributes['fake']" + " to be a " == "Expected params.Attributes['fake'] to be a ";
  }

  /** With two errors the combined message is the count line and their two
      bullet lines. */
  lemma MultipleMessageOfTwo(a: Error, b: Error)
    ensures Message(MultipleValidationErrors([a, b]))
         == "There were 2 validation errors: \n" + ("* " + Message(a) + " \n") + ("* " + Message(b) + " \n")
  {
    assert [a] + [b] == [a, b];
    MultipleMessageSnoc([a], b);
    BulletsOfOne(a);
    HeaderOfTwo();
  }

  /** The bullet line of a single error. */
  lemma BulletsOfOne(a: Error)
    ensures Bullets(Messages([a])) == "* " + Message(a) + " \n"
  {
    assert Messages([a]) == [Message(a)];
  }

  /** The count line for two errors. */
  lemma HeaderOfTwo()
    ensures Header(2) == "There were 2 validation errors: \n"
  {
    assert Numerals.NatToString(2) == "2";
  }

  /** The combined message the unit test of `MultipleValidationErrors` expects. */
  lemma UnitTestMultipleMessage()
    ensures Message(MultipleValidationErrors([Plain("Error", "Message 1", Undefined), Plain("Error", "Message 2", Undefined)]))
         == "There were 2 validation errors: \n* Message 1 \n* Message 2 \n"
  {
    var e1, e2 := Plain("Error", "Message 1", Undefined), Plain("Error", "Message 2", Undefined);
    var header := "There were 2 validation errors: \n";
    assert Message(MultipleValidationErrors([e1, e2])) == header + ("* " + Message(e1) + " \n") + ("* " + Message(e2) + " \n") by {
      MultipleMessageOfTwo(e1, e2);
    }
    assert "* " + Message(e1) + " \n" == "* Message 1 \n";
    assert "* " + Message(e2) + " \n" == "* Message 2 \n";
    TwoBulletsText();
  }

  lemma TwoBulletsText()
    ensures "There were 2 validation errors: \n" + "* Message 1 \n" + "* Message 2 \n"
         == "There were 2 validation errors: \n* Message 1 \n* Message 2 \n"
  {
    assert "There were 2 validation errors: \n" + "* Message 1 \n" == "There were 2 validation errors: \n* Message 1 \n";
  }
}

=== FILE: js.dfy ===
/** The slice of JavaScript value semantics the emulator's logic depends on:
    parameter bags, `null`/`undefined` tests, truthiness, `a || b`, property
    reads, `String(v)` (template-literal interpolation) and `Number(v)`.
    Numbers are integers here; floating point is not modelled. */
module Js {
  import opened Results
  import Numerals

  datatype Value =
    | Undefined
    | Null
    | Bool(b: bool)
    | Num(n: int)
    | Str(s: string)
    | Arr(items: seq<Value>)
    | Obj(fields: map<string, Value>)
  {
    /** `v === null || v === undefined` */
    predicate Nullish() {
      Undefined? || Null?
    }
  }

  /** A caller's parameter object; a name that is not a key reads as `undefined`. */
  type Params = map<string, Value>

  /** `params[name]` */
  function Param(params: Params, name: string): Value {
    if name in params then params[name] else Undefined
  }

  /** JavaScript's truthiness: `undefined`, `null`, `false`, `0` and `""` are
      falsy, everything else (objects and arrays included) is truthy. */
  predicate Truthy(v: Value) {
    match v
    case Undefined => false
    case Null => false
    case Bool(b) => b
    case Num(n) => n != 0
    case Str(s) => s != ""
    case _ => true
  }

  /** `a || b` */
  function Or(a: Value, b: Value): Value {
    if Truthy(a) then a else b
  }

  /** `v[key]` on a value that is not null or undefined: an object's own
      field; none of the keys the emulator reads exists on other values. */
  function Prop(v: Value, key: string): Value {
    match v
    case Obj(fields) => if key in fields then fields[key] else Undefined
    case _ => Undefined
  }

  /** The own enumerable string keys of `v` with their values. */
  function OwnFields(v: Value): map<string, Value> {
    match v
    case Obj(fields) => fields
    case _ => map[]
  }

  /** `parts.join(",")` */
  function JoinWithCommas(parts: seq<string>): string {
    if |parts| == 0 then ""
    else if |parts| == 1 then parts[0]
    else parts[0] + "," + JoinWithCommas(parts[1..])
  }

  /** `String(v)`, which is also what `${v}` in a template literal produces. */
  function ToText(v: Value): string {
    match v
    case Undefined => "undefined"
    case Null => "null"
    case Bool(b) => if b then "true" else "false"
    case Num(n) => Numerals.IntToString(n)
    case Str(s) => s
    case Arr(items) =>
      JoinWithCommas(seq(|items|, i requires 0 <= i < |items| =>
        if items[i].Nullish() then "" else ToText(items[i])))
    case Obj(_) => "[object Object]"
  }

  /** `Number(s)` for the strings this model reads: the empty string is 0, an
      optionally negated run of decimal digits is its value, anything else
      is NaN (`None`). */
  function TextToNumber(s: string): Option<int> {
    if s == "" then Some(0)
    else if Numerals.AllDigits(s) then Some(Numerals.ParseDigits(s))
    else if s[0] == '-' && |s| > 1 && Numerals.AllDigits(s[1..]) then var n: int := Numerals.ParseDigits(s[1..]); Some(-n)
    else None
  }

  /** `Number(v)`; `None` stands for NaN. */
  function ToNumber(v: Value): Option<int> {
    match v
    case Undefined => None
    case Null => Some(0)
    case Bool(b) => Some(if b then 1 else 0)
    case Num(n) => Some(n)
    case Str(s) => TextToNumber(s)
    case _ => TextToNumber(ToText(v))
  }

  /** `v > limit` for a numeric `limit`: `v` is converted to a number and a
      NaN compares false. */
  predicate GreaterThan(v: Value, limit: int) {
    match ToNumber(v)
    case Some(n) => n > limit
    case None => false
  }
}

=== FILE: message_ops.dfy ===
/** The message operations of lib/SQS.js at the store boundary:
    `changeMessageVisibility`, `deleteMessage`, `deleteMessageBatch`,
    `sendMessage`, `receiveMessage` / `doReceiveMessage` and `getTimestamp`.
    How the queue library adds, leases and acknowledges messages is not part
    of this model: those calls are the `Collaborators` the operations are
    given, and nothing is claimed about them. */
module MessageOps {
  import opened Results
  import opened Js
  import opened AwsErrors
  import opened Validation
  import opened Store
  import opened Registry
  import Numerals

  /** The empty object `{}` several operations answer with. */
  datatype EmptyObject = EmptyObject

  /** Calls into code this model does not contain: the queue library's
      `add(body, { delay })`, `ack(receiptHandle)` and `get({ visibility })`
      over one queue's messages at a given time, the MD5 hex digest, and
      `JSON.stringify`. */
  datatype Collaborators = Collaborators(
    add: (seq<MessageRecord>, Value, Value, int) -> Result<(string, seq<MessageRecord>), Error>,
    ack: (seq<MessageRecord>, Value, int) -> Result<seq<MessageRecord>, Error>,
    get: (seq<MessageRecord>, Value, int) -> Result<(Option<MessageRecord>, seq<MessageRecord>), Error>,
    md5: Value -> string,
    stringify: Value -> string)

  /** The longest visibility timeout a caller may ask for, in seconds (12 hours). */
  const VisibilityLimit: int := 43200

  const VisibilityLimitReason: string :=
    "Total VisibilityTimeout for the message is beyond the limit [43200 seconds]"

  /** The seconds `moment().add(v, "seconds")` adds: `Number(v)`, with a
      value that is not a number adding nothing. */
  function Seconds(v: Value): int {
    ToNumber(v).GetOr(0)
  }

  /** The update query of `changeMessageVisibility`: the message holds the
      receipt handle and has not been acknowledged. */
  predicate HoldsHandle(m: MessageRecord, handle: Value) {
    m.ack.Some? && Str(m.ack.value) == handle && m.deleted.None?
  }

  /** The first message `findOneAndUpdate` with that query selects. */
  function FirstHolding(msgs: seq<MessageRecord>, handle: Value): (r: Option<nat>)
    ensures r.Some? ==> r.value < |msgs| && HoldsHandle(msgs[r.value], handle)
    ensures r.Some? ==> forall j :: 0 <= j < r.value ==> !HoldsHandle(msgs[j], handle)
    ensures r.None? ==> forall j :: 0 <= j < |msgs| ==> !HoldsHandle(msgs[j], handle)
  {
    if |msgs| == 0 then None
    else if HoldsHandle(msgs[0], handle) then Some(0)
    else match FirstHolding(msgs[1..], handle)
      case None => None
      case Some(i) => Some(i + 1)
  }

  /** The messages after setting `visible` on the first one holding `handle`. */
  function SetVisible(msgs: seq<MessageRecord>, handle: Value, visible: int): (r: seq<MessageRecord>)
    ensures |r| == |msgs|
    ensures forall j :: 0 <= j < |msgs| && Some(j) != FirstHolding(msgs, handle) ==> r[j] == msgs[j]
    ensures FirstHolding(msgs, handle).Some? ==>
      var i := FirstHolding(msgs, handle).value;
      r[i] == msgs[i].(visible := visible)
  {
    match FirstHolding(msgs, handle)
    case None => msgs
    case Some(i) => msgs[i := msgs[i].(visible := visible)]
  }

  /** `changeMessageVisibility`: the required parameters are checked first,
      then a `VisibilityTimeout` beyond 43200 seconds is rejected before the
      store is touched; otherwise the queue is connected and the first
      unacknowledged message holding `ReceiptHandle` becomes visible again
      `VisibilityTimeout` seconds from now. Nothing else changes, and the
      answer is `{}` whether or not a message matched. */
  function ChangeMessageVisibility(st: State, params: Params, now: int): (r: Reply<EmptyObject>)
    ensures CheckParams(params, ["QueueUrl", "ReceiptHandle", "VisibilityTimeout"]).Some? ==>
      r == Reply(Err(CheckParams(params, ["QueueUrl", "ReceiptHandle", "VisibilityTimeout"]).value), st)
    ensures (CheckParams(params, ["QueueUrl", "ReceiptHandle", "VisibilityTimeout"]).None? &&
      GreaterThan(Param(params, "VisibilityTimeout"), VisibilityLimit)) ==>
      r == Reply(Err(InvalidParameterValue(Param(params, "VisibilityTimeout"), VisibilityLimitReason)), st)
    ensures (CheckParams(params, ["QueueUrl", "ReceiptHandle", "VisibilityTimeout"]).None? &&
      !GreaterThan(Param(params, "VisibilityTimeout"), VisibilityLimit)) ==>
      var c := ConnectToQueue(st, Param(params, "QueueUrl"), now);
      && (c.result.Err? ==> r == Reply(Err(c.result.error), c.state))
      && (c.result.Ok? ==>
            var key := c.result.value.key;
            var before := MessagesOf(c.state, key);
            var after := MessagesOf(r.state, key);
            var handle := Param(params, "ReceiptHandle");
            && r.result == Ok(EmptyObject)
            && r.state.settings == c.state.settings && r.state.cache == c.state.cache
            && (forall k :: k != key ==> MessagesOf(r.state, k) == MessagesOf(c.state, k))
            && |after| == |before|
            && (forall j :: 0 <= j < |before| && Some(j) != FirstHolding(before, handle) ==> after[j] == before[j])
            && (FirstHolding(before, handle).None? ==> r.state == c.state)
            && (FirstHolding(before, handle).Some? ==>
                  var i := FirstHolding(before, handle).value;
                  after[i] == before[i].(visible := now + Seconds(Param(params, "VisibilityTimeout")) * 1000)))
  {
    match CheckParams(params, ["QueueUrl", "ReceiptHandle", "VisibilityTimeout"])
    case Some(e) => Reply(Err(e), st)
    case None =>
      var timeout := Param(params, "VisibilityTimeout");
      if GreaterThan(timeout, VisibilityLimit) then
        Reply(Err(InvalidParameterValue(timeout, VisibilityLimitReason)), st)
      else
        var c := ConnectToQueue(st, Param(params, "QueueUrl"), now);
        match c.result
        case Err(e) => Reply(Err(e), c.state)
        case Ok(conn) =>
          var msgs := MessagesOf(c.state, conn.key);
          var handle := Param(params, "ReceiptHandle");
          if FirstHolding(msgs, handle).None? then Reply(Ok(EmptyObject), c.state)
          else
            var visible := now + Seconds(timeout) * 1000;
            Reply(Ok(EmptyObject), WithMessages(c.state, conn.key, SetVisible(msgs, handle, visible)))
  }

  /** The 12-hour limit is inclusive: 43201 seconds is rejected with
      `InvalidParameterValue` and the store untouched, 43200 seconds is not
      rejected by the range check. */
  lemma VisibilityLimitBoundary(st: State, params: Params, now: int)
    requires Truthy(Param(params, "QueueUrl")) && Param(params, "ReceiptHandle").Str?
    ensures Param(params, "VisibilityTimeout") == Num(43201) ==>
      ChangeMessageVisibility(st, params, now) ==
        Reply(Err(InvalidParameterValue(Num(43201), VisibilityLimitReason)), st)
    ensures Param(params, "VisibilityTimeout") == Num(43200) ==>
      var r := ChangeMessageVisibility(st, params, now);
      !(r.result.Err? && r.result.error.InvalidParameterValue?)
  {
  }

  /** After its visibility is changed to `t` seconds, the message holding the
      handle can be handed out again exactly from `t` seconds after now. */
  lemma ChangedMessageHiddenUntilTimeout(st: State, params: Params, now: int, later: int)
    requires CheckParams(params, ["QueueUrl", "ReceiptHandle", "VisibilityTimeout"]).None?
    requires !GreaterThan(Param(params, "VisibilityTimeout"), VisibilityLimit)
    requires ConnectToQueue(st, Param(params, "QueueUrl"), now).result.Ok?
    requires
      var c := ConnectToQueue(st, Param(params, "QueueUrl"), now);
      FirstHolding(MessagesOf(c.state, c.result.value.key), Param(params, "ReceiptHandle")).Some?
    ensures
      var c := ConnectToQueue(st, Param(params, "QueueUrl"), now);
      var key := c.result.value.key;
      var i := FirstHolding(MessagesOf(c.state, key), Param(params, "ReceiptHandle")).value;
      var m := MessagesOf(ChangeMessageVisibility(st, params, now).state, key)[i];
      Leasable(m, later) <==> later >= now + Seconds(Param(params, "VisibilityTimeout")) * 1000
  {
  }

  /** `deleteMessage`: after the required parameters and the connection, the
      queue library acknowledges `ReceiptHandle`; its error is passed on,
      otherwise the answer is `{}`. */
  function DeleteMessage(st: State, env: Collaborators, params: Params, now: int): (r: Reply<EmptyObject>)
    ensures CheckParams(params, ["QueueUrl", "ReceiptHandle"]).Some? ==>
      r == Reply(Err(CheckParams(params, ["QueueUrl", "ReceiptHandle"]).value), st)
    ensures CheckParams(params, ["QueueUrl", "ReceiptHandle"]).None? ==>
      var c := ConnectToQueue(st, Param(params, "QueueUrl"), now);
      && (c.result.Err? ==> r == Reply(Err(c.result.error), c.state))
      && (c.result.Ok? ==>
            var key := c.result.value.key;
            var acked := env.ack(MessagesOf(c.state, key), Param(params, "ReceiptHandle"), now);
            && (acked.Err? ==> r == Reply(Err(acked.error), c.state))
            && (acked.Ok? ==> (r.result == Ok(EmptyObject) &&
                  MessagesOf(r.state, key) == acked.value &&
                  r.state == WithMessages(c.state, key, acked.value))))
  {
    match CheckParams(params, ["QueueUrl", "ReceiptHandle"])
    case Some(e) => Reply(Err(e), st)
    case None =>
      var c := ConnectToQueue(st, Param(params, "QueueUrl"), now);
      match c.result
      case Err(e) => Reply(Err(e), c.state)
      case Ok(conn) =>
        match env.ack(MessagesOf(c.state, conn.key), Param(params, "ReceiptHandle"), now)
        case Err(e) => Reply(Err(e), c.state)
        case Ok(msgs) => Reply(Ok(EmptyObject), WithMessages(c.state, conn.key, msgs))
  }

  /** How one batch entry fared. */
  datatype EntryOutcome = Acked(id: Value) | NotAcked(id: Value, code: Value)

  /** A `Failed` entry of the batch answer. */
  datatype FailedEntry = FailedEntry(id: Value, senderFault: bool, code: Value)

  /** The batch answer: the `Id`s of the `Successful` entries and the `Failed` entries. */
  datatype BatchResult = BatchResult(successful: seq<Value>, failed: seq<FailedEntry>)

  /** `err.code || "UnknownError"` */
  function FailureCode(e: Error): (c: Value)
    ensures Truthy(c)
    ensures AwsErrors.IsAws(e) ==> c == Str(AwsErrors.Name(e))
  {
    Or(AwsErrors.Code(e), Str("UnknownError"))
  }

  /** The batch entries: the items of an `Entries` array. */
  function EntriesOf(v: Value): seq<Value> {
    match v
    case Arr(items) => items
    case _ => []
  }

  /** The messages as they stand before each entry's acknowledgement, and
      after the last one: an acknowledgement that succeeds replaces them, one
      that fails leaves them as they were. */
  function AckStates(ack: (seq<MessageRecord>, Value, int) -> Result<seq<MessageRecord>, Error>,
                     msgs: seq<MessageRecord>, entries: seq<Value>, now: int): (r: seq<seq<MessageRecord>>)
    ensures |r| == |entries| + 1 && r[0] == msgs
    ensures forall i :: 0 <= i < |entries| ==>
      r[i + 1] == match ack(r[i], Prop(entries[i], "ReceiptHandle"), now)
                  case Ok(after) => after
                  case Err(_) => r[i]
    decreases |entries|
  {
    if |entries| == 0 then [msgs]
    else
      var next := match ack(msgs, Prop(entries[0], "ReceiptHandle"), now)
                  case Ok(after) => after
                  case Err(_) => msgs;
      var rest := AckStates(ack, next, entries[1..], now);
      assert forall i :: 0 < i < |entries| ==> entries[i] == entries[1..][i - 1];
      [msgs] + rest
  }

  /** `async.map` over the entries: each entry's `ReceiptHandle` is
      acknowledged on its own, in entry order, and a failure becomes that
      entry's outcome instead of stopping the batch. Returns the outcomes and
      the messages left behind. */
  function AckEach(ack: (seq<MessageRecord>, Value, int) -> Result<seq<MessageRecord>, Error>,
                   msgs: seq<MessageRecord>, entries: seq<Value>, now: int): (r: (seq<EntryOutcome>, seq<MessageRecord>))
    ensures |r.0| == |entries|
    ensures forall i :: 0 <= i < |entries| ==> r.0[i].id == Prop(entries[i], "Id")
    ensures forall i :: 0 <= i < |entries| ==>
      var own := ack(AckStates(ack, msgs, entries, now)[i], Prop(entries[i], "ReceiptHandle"), now);
      && (r.0[i].Acked? <==> own.Ok?)
      && (own.Err? ==> r.0[i].code == FailureCode(own.error))
    ensures r.1 == AckStates(ack, msgs, entries, now)[|entries|]
    decreases |entries|
  {
    if |entries| == 0 then ([], msgs)
    else
      var e := entries[0];
      var first := ack(msgs, Prop(e, "ReceiptHandle"), now);
      var next := if first.Ok? then first.value else msgs;
      var outcome := if first.Ok? then Acked(Prop(e, "Id")) else NotAcked(Prop(e, "Id"), FailureCode(first.error));
      var rest := AckEach(ack, next, entries[1..], now);
      var r := ([outcome] + rest.0, rest.1);
      var states, tail := AckStates(ack, msgs, entries, now), AckStates(ack, next, entries[1..], now);
      assert forall i :: 0 <= i < |entries| ==>
        var own := ack(states[i], Prop(entries[i], "ReceiptHandle"), now);
        && r.0[i].id == Prop(entries[i], "Id")
        && (r.0[i].Acked? <==> own.Ok?)
        && (own.Err? ==> r.0[i].code == FailureCode(own.error))
      by {
        assert forall i :: 0 < i <= |entries| ==> states[i] == tail[i - 1] by {
          AckStatesTail(ack, msgs, entries, now);
        }
        assert forall i :: 0 < i < |entries| ==> r.0[i] == rest.0[i - 1];
        assert forall i :: 0 < i < |entries| ==> entries[i] == entries[1..][i - 1];
      }
      assert states[|entries|] == tail[|entries| - 1] by {
        AckStatesTail(ack, msgs, entries, now);
      }
      r
  }

  /** After the first entry, the states continue from the messages that
      entry's acknowledgement left. */
  lemma AckStatesTail(ack: (seq<MessageRecord>, Value, int) -> Result<seq<MessageRecord>, Error>,
                      msgs: seq<MessageRecord>, entries: seq<Value>, now: int)
    requires |entries| > 0
    ensures
      var first := ack(msgs, Prop(entries[0], "ReceiptHandle"), now);
      AckStates(ack, msgs, entries, now)[1..]
        == AckStates(ack, if first.Ok? then first.value else msgs, entries[1..], now)
  {
  }

  /** The `Id`s of the acknowledged outcomes, in order. */
  function Successes(outs: seq<EntryOutcome>): (s: seq<Value>)
    ensures |s| <= |outs|
    ensures forall i :: 0 <= i < |outs| && outs[i].Acked? ==> outs[i].id in s
    ensures forall x :: x in s ==> exists i :: 0 <= i < |outs| && outs[i] == Acked(x)
  {
    if |outs| == 0 then []
    else
      var rest := Successes(outs[1..]);
      assert forall i :: 0 < i < |outs| ==> outs[i] == outs[1..][i - 1];
      if outs[0].Acked? then [outs[0].id] + rest else rest
  }

  /** The failed outcomes as `Failed` entries, in order. */
  function Failures(outs: seq<EntryOutcome>): (f: seq<FailedEntry>)
    ensures |f| <= |outs|
    ensures forall i :: 0 <= i < |outs| && outs[i].NotAcked? ==>
      FailedEntry(outs[i].id, false, outs[i].code) in f
    ensures forall x :: x in f ==> (!x.senderFault &&
      exists i :: 0 <= i < |outs| && outs[i] == NotAcked(x.id, x.code))
  {
    if |outs| == 0 then []
    else
      var rest := Failures(outs[1..]);
      assert forall i :: 0 < i < |outs| ==> outs[i] == outs[1..][i - 1];
      if outs[0].NotAcked? then [FailedEntry(outs[0].id, false, outs[0].code)] + rest else rest
  }

  /** Every outcome lands in exactly one of the two lists. */
  lemma {:induction false} SplitCounts(outs: seq<EntryOutcome>)
    ensures |Successes(outs)| + |Failures(outs)| == |outs|
    decreases |outs|
  {
    if |outs| > 0 {
      SplitCounts(outs[1..]);
    }
  }

  /** Splitting a concatenation splits each part and keeps their order, so
      both lists follow the order of the entries. */
  lemma SplitAppend(a: seq<EntryOutcome>, b: seq<EntryOutcome>)
    ensures Successes(a + b) == Successes(a) + Successes(b)
    ensures Failures(a + b) == Failures(a) + Failures(b)
  {
    SuccessesAppend(a, b);
    FailuresAppend(a, b);
  }

  lemma {:induction false} SuccessesAppend(a: seq<EntryOutcome>, b: seq<EntryOutcome>)
    ensures Successes(a + b) == Successes(a) + Successes(b)
    decreases |a|
  {
    if |a| == 0 {
      assert a + b == b;
    } else {
      assert (a + b)[0] == a[0];
      assert (a + b)[1..] == a[1..] + b;
      SuccessesAppend(a[1..], b);
    }
  }

  lemma {:induction false} FailuresAppend(a: seq<EntryOutcome>, b: seq<EntryOutcome>)
    ensures Failures(a + b) == Failures(a) + Failures(b)
    decreases |a|
  {
    if |a| == 0 {
      assert a + b == b;
    } else {
      assert (a + b)[0] == a[0];
      assert (a + b)[1..] == a[1..] + b;
      FailuresAppend(a[1..], b);
    }
  }

  /** The answer `deleteMessageBatch` builds from the outcomes. */
  function Split(outs: seq<EntryOutcome>): (r: BatchResult)
    ensures |r.successful| + |r.failed| == |outs|
    ensures forall x :: x in r.failed ==> !x.senderFault
  {
    SplitCounts(outs);
    BatchResult(Successes(outs), Failures(outs))
  }

  /** A batch whose first entry is acknowledged and whose second is not
      answers the first `Id` as successful and the second as a failure that is
      not the sender's fault, carrying the store's error code. */
  lemma BatchPartialFailure(ack: (seq<MessageRecord>, Value, int) -> Result<seq<MessageRecord>, Error>,
                            msgs: seq<MessageRecord>, e1: Value, e2: Value, now: int,
                            msgs': seq<MessageRecord>, err: Error)
    requires ack(msgs, Prop(e1, "ReceiptHandle"), now) == Ok(msgs')
    requires ack(msgs', Prop(e2, "ReceiptHandle"), now) == Err(err)
    ensures Split(AckEach(ack, msgs, [e1, e2], now).0)
         == BatchResult([Prop(e1, "Id")], [FailedEntry(Prop(e2, "Id"), false, FailureCode(err))])
  {
    var outs := AckEach(ack, msgs, [e1, e2], now).0;
    assert [e1, e2][1..] == [e2];
    assert [e2][1..] == [];
    assert outs == [Acked(Prop(e1, "Id"))] + [NotAcked(Prop(e2, "Id"), FailureCode(err))];
    SplitAppend([Acked(Prop(e1, "Id"))], [NotAcked(Prop(e2, "Id"), FailureCode(err))]);
  }

  /** `deleteMessageBatch`: after the required parameters and the connection,
      the batch itself never fails. Every entry is acknowledged on its own and
      reported, under its `Id`, in `Successful` or in `Failed`, with a failed
      entry's code taken from its error. */
  function DeleteMessageBatch(st: State, env: Collaborators, params: Params, now: int): (r: Reply<BatchResult>)
    ensures CheckParams(params, ["QueueUrl", "Entries"]).Some? ==>
      r == Reply(Err(CheckParams(params, ["QueueUrl", "Entries"]).value), st)
    ensures CheckParams(params, ["QueueUrl", "Entries"]).None? ==>
      var c := ConnectToQueue(st, Param(params, "QueueUrl"), now);
      && (c.result.Err? ==> r == Reply(Err(c.result.error), c.state))
      && (c.result.Ok? ==>
            var key := c.result.value.key;
            var acks := AckEach(env.ack, MessagesOf(c.state, key), EntriesOf(Param(params, "Entries")), now);
            && r.result.Ok?
            && |r.result.value.successful| + |r.result.value.failed| == |EntriesOf(Param(params, "Entries"))|
            && r.result.value == BatchResult(Successes(acks.0), Failures(acks.0))
            && r.state == WithMessages(c.state, key, acks.1))
  {
    match CheckParams(params, ["QueueUrl", "Entries"])
    case Some(e) => Reply(Err(e), st)
    case None =>
      var c := ConnectToQueue(st, Param(params, "QueueUrl"), now);
      match c.result
      case Err(e) => Reply(Err(e), c.state)
      case Ok(conn) =>
        var acks := AckEach(env.ack, MessagesOf(c.state, conn.key), EntriesOf(Param(params, "Entries")), now);
        Reply(Ok(Split(acks.0)), WithMessages(c.state, conn.key, acks.1))
  }

  /** What `sendMessage` answers: the MD5 of the body and the new message id. */
  datatype Sent = Sent(md5OfMessageBody: string, messageId: string)

  /** The error `crypto`'s `Hash.update` raises for data that is not a string. */
  const DigestTypeError: Error :=
    Plain("TypeError", "The \"data\" argument must be of type string or an instance of Buffer, TypedArray, or DataView", Str("ERR_INVALID_ARG_TYPE"))

  /** `sendMessage`: after the required parameters and the connection, the
      queue library adds `MessageBody` with a delay of `DelaySeconds || 0`;
      the answer carries the MD5 of the body as sent and the new id. The
      digest is taken only after the message was added, so a body that is
      not a string is stored and then fails with a `TypeError`. */
  function SendMessage(st: State, env: Collaborators, params: Params, now: int): (r: Reply<Sent>)
    ensures CheckParams(params, ["MessageBody", "QueueUrl"]).Some? ==>
      r == Reply(Err(CheckParams(params, ["MessageBody", "QueueUrl"]).value), st)
    ensures CheckParams(params, ["MessageBody", "QueueUrl"]).None? ==>
      var c := ConnectToQueue(st, Param(params, "QueueUrl"), now);
      && (c.result.Err? ==> r == Reply(Err(c.result.error), c.state))
      && (c.result.Ok? ==>
            var key := c.result.value.key;
            var body := Param(params, "MessageBody");
            var added := env.add(MessagesOf(c.state, key), body, Or(Param(params, "DelaySeconds"), Num(0)), now);
            && (added.Err? ==> r == Reply(Err(added.error), c.state))
            && (added.Ok? ==> r.state == WithMessages(c.state, key, added.value.1))
            && (added.Ok? && body.Str? ==> r.result == Ok(Sent(env.md5(body), added.value.0)))
            && (added.Ok? && !body.Str? ==> r.result == Err(DigestTypeError)))
  {
    match CheckParams(params, ["MessageBody", "QueueUrl"])
    case Some(e) => Reply(Err(e), st)
    case None =>
      var c := ConnectToQueue(st, Param(params, "QueueUrl"), now);
      match c.result
      case Err(e) => Reply(Err(e), c.state)
      case Ok(conn) =>
        var body := Param(params, "MessageBody");
        match env.add(MessagesOf(c.state, conn.key), body, Or(Param(params, "DelaySeconds"), Num(0)), now)
        case Err(e) => Reply(Err(e), c.state)
        case Ok(added) =>
          var answer := if body.Str? then Ok(Sent(env.md5(body), added.0)) else Err(DigestTypeError);
          Reply(answer, WithMessages(c.state, conn.key, added.1))
  }

  /** `getTimestamp(id)` in seconds: `parseInt` of the id's first eight
      characters in base 16 (`None` for NaN). */
  function TimestampSeconds(id: string): (r: Option<nat>)
    ensures r.None? <==> |id| == 0 || !Numerals.IsHexDigit(id[0])
  {
    Numerals.ParseIntHex(id[..if |id| < 8 then |id| else 8])
  }

  /** An object id starts with its creation time in seconds as eight
      hexadecimal digits; `getTimestamp` reads exactly that time back. */
  lemma ObjectIdTimestamp(t: nat, rest: string)
    requires t < Numerals.Pow16(8)
    ensures TimestampSeconds(Numerals.HexEncode(t, 8) + rest) == Some(t)
  {
    var h := Numerals.HexEncode(t, 8);
    var id := h + rest;
    assert id[..8] == h;
    assert Numerals.HexPrefixLength(h) == 8;
    assert h[..8] == h;
    Numerals.ParseHexEncode(t, 8);
  }

  /** `getTimestamp(id).getTime().toString()`: the timestamp in milliseconds,
      or `NaN`. */
  function SentTimestamp(id: string): string {
    match TimestampSeconds(id)
    case None => "NaN"
    case Some(t) => Numerals.NatToString(t * 1000)
  }

  /** A message as `receiveMessage` reports it. */
  datatype ReceivedMessage = ReceivedMessage(
    messageId: string,
    receiptHandle: Value,
    md5OfBody: string,
    body: Value,
    sentTimestamp: string,
    approximateReceiveCount: string,
    approximateFirstReceiveCount: string)

  /** `{}` when nothing was leased, else `{ Messages: [...] }`. */
  datatype Received = NoMessages | Messages(messages: seq<ReceivedMessage>)

  /** The visibility timeout a receive asks the queue library for: the
      caller's `VisibilityTimeout` when truthy, else the queue's setting
      (so a caller's 0 means the queue's default). */
  function EffectiveVisibility(params: Params, s: Settings): (v: Value)
    ensures v == Param(params, "VisibilityTimeout") || v == Attr(s, "VisibilityTimeout")
    ensures Truthy(Param(params, "VisibilityTimeout")) ==> v == Param(params, "VisibilityTimeout")
    ensures !Truthy(Param(params, "VisibilityTimeout")) ==> v == Attr(s, "VisibilityTimeout")
    ensures Truthy(v) <==> Truthy(Param(params, "VisibilityTimeout")) || Truthy(Attr(s, "VisibilityTimeout"))
  {
    Or(Param(params, "VisibilityTimeout"), Attr(s, "VisibilityTimeout"))
  }

  /** The reported form of a leased record. Its counts are decimal numerals
      that read back as the record's tries and timestamps. */
  function Format(env: Collaborators, rec: MessageRecord): (m: ReceivedMessage)
    ensures m.messageId == rec.id && m.body == rec.payload
    ensures m.receiptHandle == (if rec.ack.Some? then Str(rec.ack.value) else Undefined)
    ensures m.md5OfBody == env.md5(Str(env.stringify(rec.payload)))
    ensures Numerals.AllDigits(m.approximateReceiveCount) &&
      Numerals.ParseDigits(m.approximateReceiveCount) == rec.tries
    ensures TimestampSeconds(rec.id).Some? ==>
      Numerals.AllDigits(m.sentTimestamp) &&
      Numerals.ParseDigits(m.sentTimestamp) == TimestampSeconds(rec.id).value * 1000
  {
    Numerals.ParseNatToString(rec.tries);
    assert TimestampSeconds(rec.id).Some? ==>
      Numerals.ParseDigits(SentTimestamp(rec.id)) == TimestampSeconds(rec.id).value * 1000 by {
      if TimestampSeconds(rec.id).Some? {
        Numerals.ParseNatToString(TimestampSeconds(rec.id).value * 1000);
      }
    }
    ReceivedMessage(
      rec.id,
      if rec.ack.Some? then Str(rec.ack.value) else Undefined,
      env.md5(Str(env.stringify(rec.payload))),
      rec.payload,
      SentTimestamp(rec.id),
      Numerals.NatToString(rec.tries),
      match rec.firstClaimed
      case Some(ms) => Numerals.IntToString(ms * 1000)
      case None => "NaN")
  }

  /** `doReceiveMessage`: connect, then lease one message with the effective
      visibility timeout. No message is the success `{}`; a leased record is
      reported as the one element of `Messages`; a library error is passed on. */
  function DoReceiveMessage(st: State, env: Collaborators, params: Params, now: int): (r: Reply<Received>)
    ensures
      var c := ConnectToQueue(st, Param(params, "QueueUrl"), now);
      && (c.result.Err? ==> r == Reply(Err(c.result.error), c.state))
      && (c.result.Ok? ==>
            var key := c.result.value.key;
            var leased := env.get(MessagesOf(c.state, key), EffectiveVisibility(params, c.result.value.settings), now);
            && (leased.Err? ==> r == Reply(Err(leased.error), c.state))
            && (leased.Ok? ==> r.state == WithMessages(c.state, key, leased.value.1))
            && (leased.Ok? && leased.value.0.None? ==> r.result == Ok(NoMessages))
            && (leased.Ok? && leased.value.0.Some? ==>
                  r.result == Ok(Messages([Format(env, leased.value.0.value)]))))
  {
    var c := ConnectToQueue(st, Param(params, "QueueUrl"), now);
    match c.result
    case Err(e) => Reply(Err(e), c.state)
    case Ok(conn) =>
      var visibility := EffectiveVisibility(params, conn.settings);
      match env.get(MessagesOf(c.state, conn.key), visibility, now)
      case Err(e) => Reply(Err(e), c.state)
      case Ok(leased) =>
        var answer := if leased.0.None? then NoMessages else Messages([Format(env, leased.0.value)]);
        Reply(Ok(answer), WithMessages(c.state, conn.key, leased.1))
  }

  /** A caller's `VisibilityTimeout` of 0 is falsy and behaves exactly like
      leaving it out: the queue's own setting is used. */
  lemma ZeroVisibilityMeansQueueDefault(st: State, env: Collaborators, params: Params, now: int)
    ensures DoReceiveMessage(st, env, params["VisibilityTimeout" := Num(0)], now)
         == DoReceiveMessage(st, env, params - {"VisibilityTimeout"}, now)
  {
    var p0 := params["VisibilityTimeout" := Num(0)];
    var p1 := params - {"VisibilityTimeout"};
    assert Param(p0, "QueueUrl") == Param(p1, "QueueUrl");
  }

  /** `receiveMessage`: `QueueUrl` is required; then a message is received as
      `doReceiveMessage` does (the `WaitTimeSeconds` pause changes nothing in
      the store). */
  function ReceiveMessage(st: State, env: Collaborators, params: Params, now: int): (r: Reply<Received>)
    ensures Param(params, "QueueUrl").Nullish() ==> r == Reply(Err(MissingRequiredParameter("QueueUrl")), st)
    ensures !Param(params, "QueueUrl").Nullish() ==> r == DoReceiveMessage(st, env, params, now)
  {
    match CheckParams(params, ["QueueUrl"])
    case Some(e) => Reply(Err(e), st)
    case None => DoReceiveMessage(st, env, params, now)
  }

  /** The message operations touch only message collections and the
      connection: whatever queue they connect to, every cached queue is still
      a stored settings document under its own URL afterwards. */
  lemma MessageOperationsKeepCacheCoherent(st: State, env: Collaborators, params: Params, now: int)
    requires CacheCoherent(st)
    ensures CacheCoherent(ChangeMessageVisibility(st, params, now).state)
    ensures CacheCoherent(DeleteMessage(st, env, params, now).state)
    ensures CacheCoherent(DeleteMessageBatch(st, env, params, now).state)
    ensures CacheCoherent(SendMessage(st, env, params, now).state)
    ensures CacheCoherent(ReceiveMessage(st, env, params, now).state)
  {
    ChangeVisibilityKeepsCacheCoherent(st, params, now);
    DeleteKeepsCacheCoherent(st, env, params, now);
    DeleteBatchKeepsCacheCoherent(st, env, params, now);
    SendKeepsCacheCoherent(st, env, params, now);
    ReceiveKeepsCacheCoherent(st, env, params, now);
  }

  lemma ChangeVisibilityKeepsCacheCoherent(st: State, params: Params, now: int)
    requires CacheCoherent(st)
    ensures CacheCoherent(ChangeMessageVisibility(st, params, now).state)
  {
    ConnectToQueueKeepsCacheCoherent(st, Param(params, "QueueUrl"), now);
  }

  lemma DeleteKeepsCacheCoherent(st: State, env: Collaborators, params: Params, now: int)
    requires CacheCoherent(st)
    ensures CacheCoherent(DeleteMessage(st, env, params, now).state)
  {
    ConnectToQueueKeepsCacheCoherent(st, Param(params, "QueueUrl"), now);
  }

  lemma DeleteBatchKeepsCacheCoherent(st: State, env: Collaborators, params: Params, now: int)
    requires CacheCoherent(st)
    ensures CacheCoherent(DeleteMessageBatch(st, env, params, now).state)
  {
    ConnectToQueueKeepsCacheCoherent(st, Param(params, "QueueUrl"), now);
  }

  lemma SendKeepsCacheCoherent(st: State, env: Collaborators, params: Params, now: int)
    requires CacheCoherent(st)
    ensures CacheCoherent(SendMessage(st, env, params, now).state)
  {
    ConnectToQueueKeepsCacheCoherent(st, Param(params, "QueueUrl"), now);
  }

  lemma ReceiveKeepsCacheCoherent(st: State, env: Collaborators, params: Params, now: int)
    requires CacheCoherent(st)
    ensures CacheCoherent(ReceiveMessage(st, env, params, now).state)
  {
    ConnectToQueueKeepsCacheCoherent(st, Param(params, "QueueUrl"), now);
  }
}

=== FILE: numerals.dfy ===
/** Decimal and hexadecimal numerals: the number-to-string conversions that
    JavaScript template literals and `toString()` perform, and the hexadecimal
    reading `parseInt(s, 16)` performs on an object id's timestamp prefix. */
module Numerals {
  import opened Results

  predicate IsDigit(c: char) {
    '0' <= c <= '9'
  }

  predicate AllDigits(s: string) {
    forall i :: 0 <= i < |s| ==> IsDigit(s[i])
  }

  function DigitChar(d: nat): (c: char)
    requires d < 10
    ensures IsDigit(c)
  {
    ('0' as int + d) as char
  }

  function DigitValue(c: char): (d: nat)
    requires IsDigit(c)
    ensures d < 10
  {
    c as int - '0' as int
  }

  /** The decimal numeral of `n`, without leading zeros. */
  function NatToString(n: nat): (s: string)
    ensures 1 <= |s| && AllDigits(s)
    ensures s[0] == '0' ==> n == 0
    decreases n
  {
    if n < 10 then [DigitChar(n)] else NatToString(n / 10) + [DigitChar(n % 10)]
  }

  /** JavaScript's rendering of an integer-valued number. */
  function IntToString(i: int): string {
    if i < 0 then "-" + NatToString(-i) else NatToString(i)
  }

  /** The value of a string of decimal digits (the empty string reads as 0). */
  function ParseDigits(s: string): nat
    requires AllDigits(s)
  {
    if |s| == 0 then 0 else ParseDigits(s[..|s| - 1]) * 10 + DigitValue(s[|s| - 1])
  }

  /** Reading back a rendered numeral gives the number that was rendered. */
  lemma {:induction false} ParseNatToString(n: nat)
    ensures ParseDigits(NatToString(n)) == n
    decreases n
  {
    var s := NatToString(n);
    if n >= 10 {
      ParseNatToString(n / 10);
      assert s[..|s| - 1] == NatToString(n / 10);
      assert DigitValue(s[|s| - 1]) == n % 10;
    } else {
      assert s[..0] == "";
    }
  }

  predicate IsHexDigit(c: char) {
    ('0' <= c <= '9') || ('a' <= c <= 'f') || ('A' <= c <= 'F')
  }

  predicate AllHex(s: string) {
    forall i :: 0 <= i < |s| ==> IsHexDigit(s[i])
  }

  function HexDigitValue(c: char): (d: nat)
    requires IsHexDigit(c)
    ensures d < 16
  {
    if '0' <= c <= '9' then c as int - '0' as int
    else if 'a' <= c <= 'f' then c as int - 'a' as int + 10
    else c as int - 'A' as int + 10
  }

  /** The lower-case hexadecimal digit for `d`, as `toHexString()` writes it. */
  function HexChar(d: nat): (c: char)
    requires d < 16
    ensures IsHexDigit(c) && HexDigitValue(c) == d
  {
    if d < 10 then ('0' as int + d) as char else ('a' as int + d - 10) as char
  }

  function Pow16(w: nat): (p: nat)
    ensures p >= 1
  {
    if w == 0 then 1 else 16 * Pow16(w - 1)
  }

  /** The value of a string of hexadecimal digits, most significant first. */
  function ParseHex(s: string): nat
    requires AllHex(s)
  {
    if |s| == 0 then 0 else ParseHex(s[..|s| - 1]) * 16 + HexDigitValue(s[|s| - 1])
  }

  /** `v` written in exactly `width` lower-case hexadecimal digits (the low
      `width` digits when `v` does not fit). */
  function HexEncode(v: nat, width: nat): (s: string)
    ensures |s| == width && AllHex(s)
  {
    if width == 0 then "" else HexEncode(v / 16, width - 1) + [HexChar(v % 16)]
  }

  /** A fixed-width encoding of a number that fits is read back exactly. */
  lemma {:induction false} ParseHexEncode(v: nat, width: nat)
    requires v < Pow16(width)
    ensures ParseHex(HexEncode(v, width)) == v
    decreases width
  {
    if width > 0 {
      var s := HexEncode(v, width);
      ParseHexEncode(v / 16, width - 1);
      assert s[..|s| - 1] == HexEncode(v / 16, width - 1);
    }
  }

  /** How many leading characters of `s` are hexadecimal digits. */
  function HexPrefixLength(s: string): (k: nat)
    ensures k <= |s|
    ensures forall i :: 0 <= i < k ==> IsHexDigit(s[i])
    ensures k < |s| ==> !IsHexDigit(s[k])
  {
    if |s| == 0 || !IsHexDigit(s[0]) then 0 else 1 + HexPrefixLength(s[1..])
  }

  /** `parseInt(s, 16)` for a string without leading blanks, sign or `0x`:
      the value of the leading hexadecimal digits, `None` (NaN) when there
      are none. */
  function ParseIntHex(s: string): (r: Option<nat>)
    ensures r.None? <==> (|s| == 0 || !IsHexDigit(s[0]))
  {
    var k := HexPrefixLength(s);
    if k == 0 then None else Some(ParseHex(s[..k]))
  }
}

=== FILE: registry.dfy ===
/** The queue registry of lib/SQS.js: `createQueue`, `getQueueUrl`,
    `listQueues`, `setQueueAttributes` and `connectToQueue`, as transitions
    of the explicit store. Driver failures are not modelled, so the only
    errors are the ones the emulator raises itself. */
module Registry {
  import opened Results
  import opened Js
  import opened AwsErrors
  import opened Validation
  import opened Store

  /** What an operation answers, together with the store it leaves behind. */
  datatype Reply<T> = Reply(result: Result<T, Error>, state: State)

  /** A connected queue: the name of its message collection and its settings. */
  datatype Connection = Connection(key: string, settings: Settings)

  /** The attribute names `createQueue` copies from the caller. */
  const CreateAttributeKeys: seq<string> := [
    "DelaySeconds", "MaximumMessageSize", "MessageRetentionPeriod", "Policy",
    "ReceiveMessageWaitTimeSeconds", "RedrivePolicy", "VisibilityTimeout"]

  /** The attribute names `setQueueAttributes` writes. */
  const UpdateAttributeKeys: seq<string> := [
    "DelaySeconds", "MaximumMessageSize", "MessageRetentionPeriod",
    "ReceiveMessageWaitTimeSeconds", "VisibilityTimeout"]

  /** Collection names `listQueues` never reports. */
  const ReservedNames: seq<string> := ["system.indexes", "queue_settings"]

  const UrlBase: string := "http://localhost/"

  /** The attributes of a queue created with `supplied` as its `Attributes`:
      the defaults, overridden by every whitelisted key the caller supplied
      (whatever its value); all other supplied keys are dropped. */
  function CreatedAttributes(supplied: Value): (attrs: map<string, Value>)
    ensures forall k :: k in attrs <==>
      k in DefaultAttributes || (k in CreateAttributeKeys && k in OwnFields(supplied))
    ensures forall k :: k in CreateAttributeKeys && k in OwnFields(supplied) ==>
      attrs[k] == OwnFields(supplied)[k]
    ensures forall k :: k in DefaultAttributes && !(k in CreateAttributeKeys && k in OwnFields(supplied)) ==>
      attrs[k] == DefaultAttributes[k]
  {
    var own := OwnFields(supplied);
    DefaultAttributes + map k | k in CreateAttributeKeys && k in own :: own[k]
  }

  /** `createQueue`: idempotent by name. An existing queue's URL is returned
      and nothing changes; otherwise a queue named `QueueName` with URL
      `http://localhost/<QueueName>` and the created attributes is stored
      and cached. */
  function CreateQueue(st: State, params: Params, now: int): (r: Reply<string>)
    ensures Param(params, "QueueName").Nullish() ==>
      r == Reply(Err(MissingRequiredParameter("QueueName")), st)
    ensures !Param(params, "QueueName").Nullish() && FindByName(st.settings, Param(params, "QueueName")).Some? ==>
      r == Reply(Ok(st.settings[FindByName(st.settings, Param(params, "QueueName")).value].url), st)
    ensures !Param(params, "QueueName").Nullish() && FindByName(st.settings, Param(params, "QueueName")).None? ==>
      var url := UrlBase + ToText(Param(params, "QueueName"));
      var s := Settings(Param(params, "QueueName"), url, now, CreatedAttributes(Param(params, "Attributes")));
      && r.result == Ok(url)
      && r.state == State(st.settings + [s], st.queues, st.cache[url := s])
  {
    match CheckParams(params, ["QueueName"])
    case Some(e) => Reply(Err(e), st)
    case None =>
      var name := Param(params, "QueueName");
      match FindByName(st.settings, name)
      case Some(i) => Reply(Ok(st.settings[i].url), st)
      case None =>
        var url := UrlBase + ToText(name);
        var s := Settings(name, url, now, CreatedAttributes(Param(params, "Attributes")));
        Reply(Ok(url), State(st.settings + [s], st.queues, st.cache[url := s]))
  }

  /** Appending a document whose name no earlier document has makes it the
      one `findOne({ Name })` returns. */
  lemma {:induction false} FindByNameAppended(ss: seq<Settings>, s: Settings)
    requires FindByName(ss, s.name).None?
    ensures FindByName(ss + [s], s.name) == Some(|ss|)
    decreases |ss|
  {
    if |ss| > 0 {
      assert (ss + [s])[1..] == ss[1..] + [s];
      FindByNameAppended(ss[1..], s);
    }
  }

  /** Appending a document does not change which earlier document a name finds. */
  lemma {:induction false} FindByNameKept(ss: seq<Settings>, s: Settings, name: Value)
    requires FindByName(ss, name).Some?
    ensures FindByName(ss + [s], name) == FindByName(ss, name)
    decreases |ss|
  {
    if ss[0].name != name {
      assert (ss + [s])[1..] == ss[1..] + [s];
      FindByNameKept(ss[1..], s, name);
    }
  }

  /** Creating a queue twice with the same parameters answers the same URL
      and the second call changes nothing, whatever the clock says. */
  lemma CreateQueueIdempotent(st: State, params: Params, t1: int, t2: int)
    ensures CreateQueue(CreateQueue(st, params, t1).state, params, t2)
         == Reply(CreateQueue(st, params, t1).result, CreateQueue(st, params, t1).state)
  {
    var name := Param(params, "QueueName");
    if !name.Nullish() && FindByName(st.settings, name).None? {
      var url := UrlBase + ToText(name);
      var s := Settings(name, url, t1, CreatedAttributes(Param(params, "Attributes")));
      FindByNameAppended(st.settings, s);
    }
  }

  /** `createQueue` keeps the cache coherent with the stored settings. */
  lemma CreateQueueKeepsCacheCoherent(st: State, params: Params, now: int)
    requires CacheCoherent(st)
    ensures CacheCoherent(CreateQueue(st, params, now).state)
  {
  }

  /** `getQueueUrl`: the URL of the first queue named `QueueName`, or
      `QueueDoesNotExist` when there is none. Nothing changes. */
  function GetQueueUrl(st: State, params: Params): (r: Result<string, Error>)
    ensures Param(params, "QueueName").Nullish() ==> r == Err(MissingRequiredParameter("QueueName"))
    ensures !Param(params, "QueueName").Nullish() ==>
      (r == Err(QueueDoesNotExist) <==>
        forall i :: 0 <= i < |st.settings| ==> st.settings[i].name != Param(params, "QueueName"))
    ensures !Param(params, "QueueName").Nullish() && FindByName(st.settings, Param(params, "QueueName")).Some? ==>
      r == Ok(st.settings[FindByName(st.settings, Param(params, "QueueName")).value].url)
    ensures r.Ok? ==> exists i :: (0 <= i < |st.settings| &&
      st.settings[i].name == Param(params, "QueueName") && st.settings[i].url == r.value &&
      forall j :: 0 <= j < i ==> st.settings[j].name != Param(params, "QueueName"))
  {
    match CheckParams(params, ["QueueName"])
    case Some(e) => Err(e)
    case None =>
      match FindByName(st.settings, Param(params, "QueueName"))
      case None => Err(QueueDoesNotExist)
      case Some(i) => Ok(st.settings[i].url)
  }

  /** After `createQueue` succeeds, `getQueueUrl` with the same name answers
      the URL `createQueue` answered. */
  lemma CreateThenGetQueueUrl(st: State, params: Params, now: int)
    requires CreateQueue(st, params, now).result.Ok?
    ensures GetQueueUrl(CreateQueue(st, params, now).state, params) == CreateQueue(st, params, now).result
  {
    var name := Param(params, "QueueName");
    if FindByName(st.settings, name).None? {
      var url := UrlBase + ToText(name);
      var s := Settings(name, url, now, CreatedAttributes(Param(params, "Attributes")));
      FindByNameAppended(st.settings, s);
    }
  }

  /** `createQueue` never shadows an existing queue: every name `getQueueUrl`
      found before still answers the same URL afterwards, whatever name was
      created. */
  lemma CreateQueueKeepsLookups(st: State, params: Params, now: int, query: Params)
    requires GetQueueUrl(st, query).Ok?
    ensures GetQueueUrl(CreateQueue(st, params, now).state, query) == GetQueueUrl(st, query)
  {
    var name := Param(params, "QueueName");
    if !name.Nullish() && FindByName(st.settings, name).None? {
      var url := UrlBase + ToText(name);
      var s := Settings(name, url, now, CreatedAttributes(Param(params, "Attributes")));
      FindByNameKept(st.settings, s, Param(query, "QueueName"));
    }
  }

  /** The name filter `listQueues` applies: a truthy `QueueNamePrefix`, read
      as literal text, or none. */
  function PrefixFilter(params: Params): Option<string> {
    if Truthy(Param(params, "QueueNamePrefix")) then Some(ToText(Param(params, "QueueNamePrefix"))) else None
  }

  /** Whether `listQueues` reports a settings document. */
  predicate Listed(s: Settings, prefix: Option<string>) {
    && (prefix.None? || (s.name.Str? && prefix.value <= s.name.s))
    && s.name != Str(ReservedNames[0])
    && s.name != Str(ReservedNames[1])
  }

  /** The URLs of the listed documents of `ss`, in store order. */
  function ListedUrls(ss: seq<Settings>, prefix: Option<string>): (r: seq<string>)
    ensures |r| <= |ss|
    ensures forall u :: u in r <==> exists i :: 0 <= i < |ss| && Listed(ss[i], prefix) && ss[i].url == u
  {
    if |ss| == 0 then []
    else
      var rest := ListedUrls(ss[1..], prefix);
      assert forall i :: 0 < i < |ss| ==> ss[i] == ss[1..][i - 1];
      if Listed(ss[0], prefix) then [ss[0].url] + rest else rest
  }

  /** Listing a concatenation lists each part in order. */
  lemma {:induction false} ListedUrlsAppend(a: seq<Settings>, b: seq<Settings>, prefix: Option<string>)
    ensures ListedUrls(a + b, prefix) == ListedUrls(a, prefix) + ListedUrls(b, prefix)
    decreases |a|
  {
    if |a| == 0 {
      assert a + b == b;
    } else {
      assert (a + b)[1..] == a[1..] + b;
      ListedUrlsAppend(a[1..], b, prefix);
    }
  }

  /** `listQueues`: exactly the URLs of the stored queues whose name starts
      with `QueueNamePrefix` (every queue when no prefix is given), leaving
      out the reserved collection names; store order is kept. */
  function ListQueues(st: State, params: Params): (r: seq<string>)
    ensures forall u :: u in r <==> exists i :: (0 <= i < |st.settings| &&
      st.settings[i].url == u &&
      st.settings[i].name != Str("system.indexes") && st.settings[i].name != Str("queue_settings") &&
      (Truthy(Param(params, "QueueNamePrefix")) ==>
        st.settings[i].name.Str? && ToText(Param(params, "QueueNamePrefix")) <= st.settings[i].name.s))
  {
    ListedUrls(st.settings, PrefixFilter(params))
  }

  /** The two queues of the `listQueues` functional test, stored in this
      order under their `https://example.com/1234/` URLs. */
  function ListFixture(created: int): seq<Settings> {
    var attrs := map["DelaySeconds" := Num(0), "MaxMessageSize" := Num(0), "MessageRetentionPeriod" := Num(0),
                     "ReceiveMessageWaitTimeSeconds" := Num(0), "VisibilityTimeout" := Num(0)];
    [Settings(Str("test_queue"), "https://example.com/1234/test_queue", created, attrs),
     Settings(Str("fake_queue"), "https://example.com/1234/fake_queue", created, attrs)]
  }

  /** With the prefix `test`, exactly the one `test_queue` URL is listed. */
  lemma ListQueuesByPrefixExample(created: int)
    ensures ListQueues(State(ListFixture(created), map[], map[]), map["QueueNamePrefix" := Str("test")])
         == ["https://example.com/1234/test_queue"]
  {
    var ss := ListFixture(created);
    assert "test" <= "test_queue";
    assert !("test" <= "fake_queue") by {
      assert "fake_queue"[0] != "test"[0];
    }
    ListedUrlsAppend([ss[0]], [ss[1]], Some("test"));
    assert ss == [ss[0]] + [ss[1]];
  }

  /** With no prefix, both queues are listed, in store order. */
  lemma ListQueuesUnfilteredExample(created: int)
    ensures ListQueues(State(ListFixture(created), map[], map[]), map[])
         == ["https://example.com/1234/test_queue", "https://example.com/1234/fake_queue"]
  {
    var ss := ListFixture(created);
    ListedUrlsAppend([ss[0]], [ss[1]], None);
    assert ss == [ss[0]] + [ss[1]];
  }

  /** The attributes `setQueueAttributes` writes: the whitelisted keys whose
      supplied value is truthy. */
  function AttributeUpdates(supplied: Value): (u: map<string, Value>)
    ensures forall k :: k in u <==> k in UpdateAttributeKeys && Truthy(Prop(supplied, k))
    ensures forall k :: k in u ==> u[k] == Prop(supplied, k)
  {
    map k | k in UpdateAttributeKeys && Truthy(Prop(supplied, k)) :: Prop(supplied, k)
  }

  /** `setQueueAttributes`: on the first queue whose URL is `QueueUrl`, each
      whitelisted attribute with a truthy supplied value is overwritten and
      every other field is kept; an unknown URL changes nothing. It answers
      `undefined` in both cases. The cache is not touched. */
  function SetQueueAttributes(st: State, params: Params): (r: Reply<()>)
    ensures CheckParams(params, ["QueueUrl", "Attributes"]).Some? ==>
      r == Reply(Err(CheckParams(params, ["QueueUrl", "Attributes"]).value), st)
    ensures CheckParams(params, ["QueueUrl", "Attributes"]).None? ==> r.result == Ok(())
    ensures r.state.queues == st.queues && r.state.cache == st.cache
    ensures |r.state.settings| == |st.settings|
    ensures FindByUrl(st.settings, Param(params, "QueueUrl")).None? ==> r.state == st
    ensures forall j :: 0 <= j < |st.settings| && Some(j) != FindByUrl(st.settings, Param(params, "QueueUrl")) ==>
      r.state.settings[j] == st.settings[j]
    ensures CheckParams(params, ["QueueUrl", "Attributes"]).None? && FindByUrl(st.settings, Param(params, "QueueUrl")).Some? ==>
      var i := FindByUrl(st.settings, Param(params, "QueueUrl")).value;
      var supplied := Param(params, "Attributes");
      && r.state.settings[i].name == st.settings[i].name
      && r.state.settings[i].url == st.settings[i].url
      && r.state.settings[i].created == st.settings[i].created
      && (forall k :: k in UpdateAttributeKeys && Truthy(Prop(supplied, k)) ==>
            Attr(r.state.settings[i], k) == Prop(supplied, k))
      && (forall k :: !(k in UpdateAttributeKeys && Truthy(Prop(supplied, k))) ==>
            (k in r.state.settings[i].attrs <==> k in st.settings[i].attrs) &&
            Attr(r.state.settings[i], k) == Attr(st.settings[i], k))
  {
    match CheckParams(params, ["QueueUrl", "Attributes"])
    case Some(e) => Reply(Err(e), st)
    case None =>
      var updates := AttributeUpdates(Param(params, "Attributes"));
      match FindByUrl(st.settings, Param(params, "QueueUrl"))
      case None => Reply(Ok(()), st)
      case Some(i) =>
        var s := st.settings[i];
        Reply(Ok(()), st.(settings := st.settings[i := s.(attrs := s.attrs + updates)]))
  }

  /** `setQueueAttributes` updates the stored settings but not the cached
      copy, so a queue connected before the update keeps being answered with
      its old settings: a receive after raising `VisibilityTimeout` to 1000
      still leases with 30. */
  lemma SetQueueAttributesLeavesCacheStale()
    ensures
      var s := Settings(Str("q"), UrlBase + "q", 0, DefaultAttributes);
      var st := State([s], map[], map[UrlBase + "q" := s]);
      var params := map["QueueUrl" := Str(UrlBase + "q"), "Attributes" := Obj(map["VisibilityTimeout" := Num(1000)])];
      var after := SetQueueAttributes(st, params).state;
      var c := ConnectToQueue(after, Str(UrlBase + "q"), 0);
      && CacheCoherent(st)
      && !CacheCoherent(after)
      && Attr(after.settings[0], "VisibilityTimeout") == Num(1000)
      && c.result.Ok? && Attr(c.result.value.settings, "VisibilityTimeout") == Num(30)
  {
    var s := Settings(Str("q"), UrlBase + "q", 0, DefaultAttributes);
    var st := State([s], map[], map[UrlBase + "q" := s]);
    var params := map["QueueUrl" := Str(UrlBase + "q"), "Attributes" := Obj(map["VisibilityTimeout" := Num(1000)])];
    var r := SetQueueAttributes(st, params);
    assert CheckParams(params, ["QueueUrl", "Attributes"]).None?;
    assert FindByUrl(st.settings, Str(UrlBase + "q")) == Some(0);
    assert Attr(r.state.settings[0], "VisibilityTimeout") == Num(1000);
    assert Attr(r.state.cache[UrlBase + "q"], "VisibilityTimeout") == Num(30);
    assert r.state.cache[UrlBase + "q"] !in r.state.settings;
  }

  /** `setQueueAttributes` as evidently intended: the update also reaches the
      cached copy of the updated queue. Otherwise as `SetQueueAttributes`. */
  function SetQueueAttributesCoherent(st: State, params: Params): (r: Reply<()>)
    ensures r.result == SetQueueAttributes(st, params).result
    ensures r.state.settings == SetQueueAttributes(st, params).state.settings
    ensures r.state.queues == st.queues
    ensures CacheCoherent(st) ==> CacheCoherent(r.state)
    ensures forall k :: k in r.state.cache <==> k in st.cache
    ensures CheckParams(params, ["QueueUrl", "Attributes"]).None? && FindByUrl(st.settings, Param(params, "QueueUrl")).Some? ==>
      var i := FindByUrl(st.settings, Param(params, "QueueUrl")).value;
      forall k :: k in st.cache && st.cache[k] == st.settings[i] ==> r.state.cache[k] == r.state.settings[i]
  {
    var plain := SetQueueAttributes(st, params);
    match CheckParams(params, ["QueueUrl", "Attributes"])
    case Some(_) => plain
    case None =>
      match FindByUrl(st.settings, Param(params, "QueueUrl"))
      case None => plain
      case Some(i) =>
        var before := st.settings[i];
        var updated := plain.state.settings[i];
        var cache := map k | k in st.cache :: if st.cache[k] == before then updated else st.cache[k];
        assert CacheCoherent(st) ==> CacheCoherent(plain.state.(cache := cache)) by {
          if CacheCoherent(st) {
            forall k | k in cache
              ensures cache[k] in plain.state.settings && cache[k].url == k
            {
              if st.cache[k] != before {
                var j :| 0 <= j < |st.settings| && st.settings[j] == st.cache[k];
                assert j != i;
                assert plain.state.settings[j] == st.settings[j];
              }
            }
          }
        }
        Reply(plain.result, plain.state.(cache := cache))
  }

  /** With the cache kept coherent, the queue connected after the update is
      answered with the new `VisibilityTimeout`. */
  lemma CoherentUpdateSeenByConnect()
    ensures
      var s := Settings(Str("q"), UrlBase + "q", 0, DefaultAttributes);
      var st := State([s], map[], map[UrlBase + "q" := s]);
      var params := map["QueueUrl" := Str(UrlBase + "q"), "Attributes" := Obj(map["VisibilityTimeout" := Num(1000)])];
      var after := SetQueueAttributesCoherent(st, params).state;
      var c := ConnectToQueue(after, Str(UrlBase + "q"), 0);
      && CacheCoherent(after)
      && c.result.Ok? && Attr(c.result.value.settings, "VisibilityTimeout") == Num(1000)
  {
    var s := Settings(Str("q"), UrlBase + "q", 0, DefaultAttributes);
    var st := State([s], map[], map[UrlBase + "q" := s]);
    var params := map["QueueUrl" := Str(UrlBase + "q"), "Attributes" := Obj(map["VisibilityTimeout" := Num(1000)])];
    var r := SetQueueAttributesCoherent(st, params);
    assert CheckParams(params, ["QueueUrl", "Attributes"]).None?;
    assert FindByUrl(st.settings, Str(UrlBase + "q")) == Some(0);
    assert r.state.cache[UrlBase + "q"] == r.state.settings[0];
    assert Attr(r.state.settings[0], "VisibilityTimeout") == Num(1000);
  }

  /** `queueUrl.split("/").pop()`: the text after the last `/` (all of it
      when there is no `/`). */
  function LastSegment(u: string): (r: string)
    ensures |r| <= |u| && r == u[|u| - |r|..]
    ensures '/' !in r
    ensures |r| < |u| ==> u[|u| - |r| - 1] == '/'
  {
    if |u| == 0 then ""
    else if u[|u| - 1] == '/' then ""
    else LastSegment(u[..|u| - 1]) + [u[|u| - 1]]
  }

  /** The URL `createQueue` derives from a name without `/` ends in that
      name, so auto-creating from the URL gives the queue the same name. */
  lemma LastSegmentOfQueueUrl(name: string)
    requires '/' !in name
    ensures LastSegment(UrlBase + name) == name
  {
    LastSegmentAfterSlash(UrlBase, name);
  }

  /** After a prefix ending in `/`, a segment without `/` is the last segment. */
  lemma {:induction false} LastSegmentAfterSlash(a: string, b: string)
    requires |a| > 0 && a[|a| - 1] == '/'
    requires '/' !in b
    ensures LastSegment(a + b) == b
    decreases |b|
  {
    if |b| > 0 {
      var b' := b[..|b| - 1];
      assert (a + b)[..|a + b| - 1] == a + b';
      LastSegmentAfterSlash(a, b');
      assert b' + [b[|b| - 1]] == b;
    }
  }

  /** The keys a plain `{}` inherits from `Object.prototype`: reading one of
      them from the `queues` object gives a truthy value although no queue
      was ever cached under it. */
  const InheritedKeys: set<string> := {
    "constructor", "__proto__", "hasOwnProperty", "isPrototypeOf",
    "propertyIsEnumerable", "toLocaleString", "toString", "valueOf",
    "__defineGetter__", "__defineSetter__", "__lookupGetter__", "__lookupSetter__"}

  /** What every caller of `connectToQueue` fails with when the cache entry it
      was handed has neither a `queue` nor `settings`. */
  const MissingQueueError: Error :=
    Plain("TypeError", "Cannot read properties of undefined", Undefined)

  /** The `TypeError` `queueUrl.split` raises for a URL that is not a string. */
  const SplitTypeError: Error :=
    Plain("TypeError", "queueUrl.split is not a function", Undefined)

  /** `connectToQueue`: a falsy URL is an error; a cached URL answers the
      cached queue; otherwise the first stored queue with that URL is cached
      and answered; otherwise a queue named after the URL's last path segment
      is created with default attributes, stored and cached. A non-string
      URL cannot be split and fails with a `TypeError`. A URL that names an
      inherited property of the cache object is a hit with no queue, on which
      the caller fails with a `TypeError`. */
  function ConnectToQueue(st: State, url: Value, now: int): (r: Reply<Connection>)
    ensures !Truthy(url) ==> r == Reply(Err(Plain("Error", "QueueUrl required", Undefined)), st)
    ensures Truthy(url) && ToText(url) in st.cache ==>
      r == Reply(Ok(Connection(ToText(url), st.cache[ToText(url)])), st)
    ensures Truthy(url) && ToText(url) !in st.cache && ToText(url) in InheritedKeys ==>
      r == Reply(Err(MissingQueueError), st)
    ensures (Truthy(url) && ToText(url) !in st.cache && ToText(url) !in InheritedKeys &&
             FindByUrl(st.settings, url).Some?) ==>
      var s := st.settings[FindByUrl(st.settings, url).value];
      r == Reply(Ok(Connection(ToText(url), s)), st.(cache := st.cache[ToText(url) := s]))
    ensures (Truthy(url) && ToText(url) !in st.cache && ToText(url) !in InheritedKeys &&
             FindByUrl(st.settings, url).None? && url.Str?) ==>
      var s := Settings(Str(LastSegment(url.s)), url.s, now, DefaultAttributes);
      r == Reply(Ok(Connection(url.s, s)), State(st.settings + [s], st.queues, st.cache[url.s := s]))
    ensures (Truthy(url) && ToText(url) !in st.cache && ToText(url) !in InheritedKeys &&
             FindByUrl(st.settings, url).None? && !url.Str?) ==>
      r == Reply(Err(SplitTypeError), st)
    ensures r.result.Err? ==> r.state == st
    ensures r.result.Ok? ==> (r.state.queues == st.queues && r.result.value.key in r.state.cache &&
      r.state.cache[r.result.value.key] == r.result.value.settings)
  {
    if !Truthy(url) then Reply(Err(Plain("Error", "QueueUrl required", Undefined)), st)
    else
      var key := ToText(url);
      if key in st.cache then Reply(Ok(Connection(key, st.cache[key])), st)
      else if key in InheritedKeys then Reply(Err(MissingQueueError), st)
      else match FindByUrl(st.settings, url)
        case Some(i) =>
          Reply(Ok(Connection(key, st.settings[i])), st.(cache := st.cache[key := st.settings[i]]))
        case None =>
          if url.Str? then
            var s := Settings(Str(LastSegment(url.s)), url.s, now, DefaultAttributes);
            Reply(Ok(Connection(url.s, s)), State(st.settings + [s], st.queues, st.cache[url.s := s]))
          else
            Reply(Err(SplitTypeError), st)
  }

  /** `connectToQueue` keeps the cache coherent with the stored settings. */
  lemma ConnectToQueueKeepsCacheCoherent(st: State, url: Value, now: int)
    requires CacheCoherent(st)
    ensures CacheCoherent(ConnectToQueue(st, url, now).state)
  {
  }

  /** Connecting to the same URL again is a cache hit: same answer, no change. */
  lemma ConnectToQueueTwice(st: State, url: Value, t1: int, t2: int)
    requires ConnectToQueue(st, url, t1).result.Ok?
    ensures ConnectToQueue(ConnectToQueue(st, url, t1).state, url, t2)
         == Reply(ConnectToQueue(st, url, t1).result, ConnectToQueue(st, url, t1).state)
  {
  }

  /** A queue URL `http://localhost/<name>` never names an inherited
      property of the cache object. */
  lemma QueueUrlNotInherited(name: string)
    ensures UrlBase + name !in InheritedKeys
  {
    var u := UrlBase + name;
    assert u[4] == ':';
    assert forall k :: k in InheritedKeys ==> |k| < 5 || k[4] != ':';
  }

  /** A queue auto-created by connecting to `http://localhost/<name>` is the
      queue `createQueue` with that name finds: it answers the same URL and
      stores nothing new. */
  lemma ConnectThenCreateQueue(st: State, name: string, now: int, later: int)
    requires '/' !in name
    requires UrlBase + name !in st.cache
    requires FindByUrl(st.settings, Str(UrlBase + name)).None?
    requires FindByName(st.settings, Str(name)).None?
    ensures
      var c := ConnectToQueue(st, Str(UrlBase + name), now);
      CreateQueue(c.state, map["QueueName" := Str(name)], later) == Reply(Ok(UrlBase + name), c.state)
  {
    var url := Str(UrlBase + name);
    LastSegmentOfQueueUrl(name);
    QueueUrlNotInherited(name);
    var s := Settings(Str(name), UrlBase + name, now, DefaultAttributes);
    FindByNameAppended(st.settings, s);
    assert ToText(url) == UrlBase + name;
  }
}

=== FILE: results.dfy ===
/** Optional values and success-or-error results, used wherever the emulator
    answers a callback with either `(err)` or `(null, data)`. */
module Results {

  datatype Option<+T> = None | Some(value: T) {

    /** The wrapped value, or `default` when there is none. */
    function GetOr(default: T): T {
      match this
      case Some(v) => v
      case None => default
    }
  }

  /** `Err` carries what the source passes as the callback's first argument,
      `Ok` what it passes as the second. */
  datatype Result<+T, +E> = Ok(value: T) | Err(error: E)
}

=== FILE: store.dfy ===
/** The persistent state the emulator keeps in MongoDB, as one value: the
    `queue_settings` collection, one message collection per queue URL, and
    the process-wide cache of connected queues (the module-level `queues`
    object of lib/SQS.js). */
module Store {
  import opened Results
  import opened Js

  /** A `queue_settings` document: `Name`, `URL`, `Created` and the queue's
      attributes (`DelaySeconds`, `VisibilityTimeout`, ...). */
  datatype Settings = Settings(name: Value, url: string, created: int, attrs: map<string, Value>)

  /** `settings[key]` for an attribute key. */
  function Attr(s: Settings, key: string): Value {
    if key in s.attrs then s.attrs[key] else Undefined
  }

  /** A message document as the queue library keeps it. `ack` is the receipt
      handle of the current lease, `visible` the time (milliseconds) before
      which it is not handed out, `deleted` the time it was acknowledged. */
  datatype MessageRecord = MessageRecord(
    id: string,
    ack: Option<string>,
    visible: int,
    deleted: Option<int>,
    payload: Value,
    tries: nat,
    firstClaimed: Option<int>)

  /** Whether a message can be handed out at time `t`: it is not acknowledged
      and its visibility time has passed. */
  predicate Leasable(m: MessageRecord, t: int) {
    m.deleted.None? && m.visible <= t
  }

  /** The whole store. `settings` is in natural (insertion) order, which is
      the order `find` and `findOne` scan it in. `cache` maps the string form
      of a queue URL to the settings it was connected with; the message
      collection of a cached queue is the one named by that key. */
  datatype State = State(
    settings: seq<Settings>,
    queues: map<string, seq<MessageRecord>>,
    cache: map<string, Settings>)

  /** The messages of the collection named `key` (empty when it was never written). */
  function MessagesOf(st: State, key: string): seq<MessageRecord> {
    if key in st.queues then st.queues[key] else []
  }

  /** The store with the collection named `key` replaced by `msgs`. */
  function WithMessages(st: State, key: string, msgs: seq<MessageRecord>): (r: State)
    ensures r.settings == st.settings && r.cache == st.cache
    ensures MessagesOf(r, key) == msgs
    ensures forall k :: k != key ==> MessagesOf(r, k) == MessagesOf(st, k)
  {
    st.(queues := st.queues[key := msgs])
  }

  /** The attributes every new queue starts with. */
  const DefaultAttributes: map<string, Value> := map[
    "DelaySeconds" := Num(0),
    "MaximumMessageSize" := Num(262144),
    "MessageRetentionPeriod" := Num(345600),
    "ReceiveMessageWaitTimeSeconds" := Num(0),
    "VisibilityTimeout" := Num(30)
  ]

  /** `findOne({ Name: name })`: the position of the first settings document
      whose `Name` equals `name`. */
  function FindByName(ss: seq<Settings>, name: Value): (r: Option<nat>)
    ensures r.Some? ==> r.value < |ss| && ss[r.value].name == name
    ensures r.Some? ==> forall j :: 0 <= j < r.value ==> ss[j].name != name
    ensures r.None? ==> forall j :: 0 <= j < |ss| ==> ss[j].name != name
  {
    if |ss| == 0 then None
    else if ss[0].name == name then Some(0)
    else match FindByName(ss[1..], name)
      case None => None
      case Some(i) => Some(i + 1)
  }

  /** `findOne({ URL: url })`: the position of the first settings document
      whose `URL` equals `url` (only a string can equal a stored URL). */
  function FindByUrl(ss: seq<Settings>, url: Value): (r: Option<nat>)
    ensures r.Some? ==> r.value < |ss| && Str(ss[r.value].url) == url
    ensures r.Some? ==> forall j :: 0 <= j < r.value ==> Str(ss[j].url) != url
    ensures r.None? ==> forall j :: 0 <= j < |ss| ==> Str(ss[j].url) != url
  {
    if |ss| == 0 then None
    else if Str(ss[0].url) == url then Some(0)
    else match FindByUrl(ss[1..], url)
      case None => None
      case Some(i) => Some(i + 1)
  }

  /** Every cached queue is one of the stored settings documents, cached under
      its own URL. */
  predicate CacheCoherent(st: State) {
    forall k :: k in st.cache ==> st.cache[k] in st.settings && st.cache[k].url == k
  }
}

=== FILE: validation.dfy ===
/** `checkParams` (lib/SQS.js:455-473): the required-parameter check every
    operation runs before it touches the store. */
module Validation {
  import opened Results
  import opened Js
  import opened AwsErrors

  /** A required name counts as missing when its value is null or undefined
      (a missing key reads as undefined). */
  predicate IsMissing(params: Params, name: string) {
    Param(params, name).Nullish()
  }

  /** The missing names among `names`, in the order of `names` (the list the
      source's `forEach` pushes onto). */
  function MissingNames(params: Params, names: seq<string>): (r: seq<string>)
    ensures |r| <= |names|
    ensures forall n :: n in r <==> n in names && IsMissing(params, n)
  {
    if |names| == 0 then []
    else
      var last := names[|names| - 1];
      MissingNames(params, names[..|names| - 1]) + (if IsMissing(params, last) then [last] else [])
  }

  /** Filtering a concatenation filters each part and keeps them in order, so
      the missing names are reported in required-list order. */
  lemma {:induction false} MissingNamesAppend(params: Params, a: seq<string>, b: seq<string>)
    ensures MissingNames(params, a + b) == MissingNames(params, a) + MissingNames(params, b)
    decreases |b|
  {
    if |b| == 0 {
      assert a + b == a;
    } else {
      var b', last := b[..|b| - 1], b[|b| - 1];
      var tail := if IsMissing(params, last) then [last] else [];
      assert (a + b)[..|a + b| - 1] == a + b';
      assert (a + b)[|a + b| - 1] == last;
      MissingNamesAppend(params, a, b');
      assert MissingNames(params, a) + MissingNames(params, b') + tail
          == MissingNames(params, a) + (MissingNames(params, b') + tail);
    }
  }

  /** `checkParams(params, names)`: no error when nothing is missing, the one
      `MissingRequiredParameter` when exactly one name is missing, otherwise a
      `MultipleValidationErrors` listing one `MissingRequiredParameter` per
      missing name in required-list order. */
  function CheckParams(params: Params, names: seq<string>): (r: Option<Error>)
    ensures r.None? <==> forall n :: n in names ==> !IsMissing(params, n)
    ensures r.Some? ==> r.value.MissingRequiredParameter? || r.value.MultipleValidationErrors?
    ensures r.Some? && r.value.MissingRequiredParameter? ==>
      && r.value.param in names && IsMissing(params, r.value.param)
      && forall n :: n in names && IsMissing(params, n) ==> n == r.value.param
    ensures r.Some? && r.value.MultipleValidationErrors? ==>
      var missing := MissingNames(params, names);
      && |r.value.errors| == |missing| >= 2
      && forall i :: 0 <= i < |missing| ==> r.value.errors[i] == MissingRequiredParameter(missing[i])
  {
    var missing := MissingNames(params, names);
    if |missing| == 0 then None
    else
      assert missing[0] in missing;
      if |missing| == 1 then
        assert forall n :: n in missing ==> n == missing[0];
        Some(MissingRequiredParameter(missing[0]))
      else
        Some(MultipleValidationErrors(seq(|missing|, i requires 0 <= i < |missing| => MissingRequiredParameter(missing[i]))))
  }

  /** `sendMessage` called with neither `MessageBody` nor `QueueUrl` fails with
      two `MissingRequiredParameter` errors, in that order. */
  lemma SendMessageWithNothing(params: Params)
    requires "MessageBody" !in params && "QueueUrl" !in params
    ensures CheckParams(params, ["MessageBody", "QueueUrl"])
         == Some(MultipleValidationErrors([MissingRequiredParameter("MessageBody"), MissingRequiredParameter("QueueUrl")]))
  {
    var names := ["MessageBody", "QueueUrl"];
    MissingNamesAppend(params, ["MessageBody"], ["QueueUrl"]);
    assert names == ["MessageBody"] + ["QueueUrl"];
    assert MissingNames(params, ["MessageBody"]) == ["MessageBody"] by {
      assert ["MessageBody"][..0] == [];
    }
    assert MissingNames(params, ["QueueUrl"]) == ["QueueUrl"] by {
      assert ["QueueUrl"][..0] == [];
    }
    var missing := MissingNames(params, names);
    assert missing == ["MessageBody", "QueueUrl"];
    assert seq(|missing|, i requires 0 <= i < |missing| => MissingRequiredParameter(missing[i]))
        == [MissingRequiredParameter("MessageBody"), MissingRequiredParameter("QueueUrl")];
  }
}
